=== FILE: README.md ===
# Dali core, modelled in Dafny

This project models the memory and tensor core of the Dali deep-learning library. It also models two data-preparation routines that ship with it. There is one Dafny module per source file:

- `MemoryBank` (`memory_bank.dfy`): the free-list cache behind every allocation. Released blocks are filed by size on a stack, once for the host and once for the device. Each stack hands back its most recent block before anything new is allocated. Allocation counters record the misses.
- `SynchronizedMemory` (`synchronized_memory.dfy`): one logical buffer held in up to two physical copies, host and device. Freshness flags say which copy is current. The class models lazy allocation through the bank, copy-on-demand between the copies, clearing on first allocation, and the rule that picks the device an operation runs on (`should_compute_on_gpu`).
- `TensorInternal` (`tensor_internal.dfy`): a tensor is a shape, a shared memory and an offset. The module covers:
  - the views: `operator[]`, `Slice` and `ravel`;
  - element access through the host copy;
  - `clear` and `zeros`.
- `TensorAccessor` (`tensor_accessor.dfy`): the host kernels `select_from_cols`, `rows_pluck` and `rows_pluck_backprop`, and the dispatchers that hand them the tensors' host blocks.
- `MshadowWrapper` (`mshadow_wrapper.dfy`): the strided-array wrapper. It covers:
  - its two constructor checks;
  - the plan that copies shape and strides into fixed-size arrays;
  - `map_indices_using_stride`, which turns a row-major `(i, j)` into the strided position;
  - `Eval` and `REval`.
- `CharacterPrediction` (`character_prediction.dfy`): `get_character_sequences`, which cuts a file into lines of character codes framed by padding symbols.
- `WikiAnswerGenerate` (`wikianswer_generate.dfy`): the dataset script's directory filter and row extraction, and the pair count it reports.

Conventions:

- A C++ pointer `R*` is an `array<int>`. The element type `R` is `int`.
- The compile-time switch `DALI_USE_CUDA` is an immutable `cuda` flag. Device operations require it.
- The static `tie_breaker_device` and the constant `DALI_MAX_STRIDED_DIMENSION` (from `dali/config.h`, which is not part of this model) are parameters.
- The static members of `memory_bank<R>` are the fields of one `Bank` object. That object is passed to everything that allocates or releases memory.
- File contents are inputs:
  - the bytes of the character file, and whether it could be opened;
  - the lines of each dataset file, or their absence. Each line is given as Python's file iterator yields it under `newline=''`: with its terminator, `\n`, `\r\n` or a lone `\r`, kept at the end, and only the last line of a file may lack one.
- `char` is signed, as on x86. The character reader's model, and the two findings about it, hold on such platforms. With an unsigned `char` the loop as written never sees `EOF`. It reads every byte, pushes one last token `min(vocab_size - 1, 255)` for the end of file, and stops through `while(file)`. That platform is not modelled.

Where each operation of the source is defined (the rows below state what is proved about them):

- `TensorInternal.NumberOfElements`: `number_of_elements` (`dali/math/TensorInternal.cu.cpp:292-295`).
- `TensorInternal.Index`: `operator[]` (`dali/math/TensorInternal.cu.cpp:297-303`).
- `TensorInternal.Ravel`: `ravel` (`dali/math/TensorInternal.cu.cpp:305-309`).
- `TensorInternal.Slice`: `Slice` (`dali/math/TensorInternal.cu.cpp:311-319`).
- `MemoryBank.Deposited`: the vault after `deposit_cpu` or `deposit_gpu` (`dali/math/memory_bank/MemoryBank.cpp:10-17`).
- `MemoryBank.Withdrawn`: the cache lookup of `allocate_cpu` or `allocate_gpu` (`dali/math/memory_bank/MemoryBank.cpp:19-30`).
- `CharacterPrediction.Sequences`: the result of `get_character_sequences` (`cpp/examples/character_prediction.cpp:31-55`).
- `CharacterPrediction.Token`: `std::min(vocab_size-1, (int)ch)` (`cpp/examples/character_prediction.cpp:52`).
- `WikiAnswerGenerate.Split`: `line.split('\t')` (`data/wikianswers/wikianswer_generate.py:61`).
- `WikiAnswerGenerate.Extract`: reading one data file (`data/wikianswers/wikianswer_generate.py:55-62`).
- `WikiAnswerGenerate.Collect`: the loop over the subject directories (`data/wikianswers/wikianswer_generate.py:51-62`).

## Model

| member | source | states |
|---|---|---|
| MemoryBank.DepositedBuckets | dali/math/memory_bank/MemoryBank.cpp:10-17 | a deposit appends the block to the stack of its own size (creating the entry if missing) and leaves every other size untouched |
| MemoryBank.WithdrawnIsLifo | dali/math/memory_bank/MemoryBank.cpp:23-29 | a non-empty stack hands out its top block and pops exactly that one; other sizes are unchanged |
| MemoryBank.WithdrawnMiss | dali/math/memory_bank/MemoryBank.cpp:23-34 | the cache misses exactly when the stack for the size is missing or empty |
| MemoryBank.DepositThenWithdraw | dali/math/memory_bank/MemoryBank.cpp:10-34 | round trip: deposit then allocate of the same size returns the deposited block and restores every stack |
| MemoryBank.LastInFirstOut | dali/math/memory_bank/MemoryBank.cpp:10-34 | two deposits of one size come back in reverse order |
| MemoryBank.DepositedKeepsInvariants | dali/math/memory_bank/MemoryBank.cpp:10-17 | depositing a correctly sized block that is not already held keeps every block correctly sized and distinct, and adds exactly that block |
| MemoryBank.WithdrawnKeepsInvariants | dali/math/memory_bank/MemoryBank.cpp:20-30 | a reused block has the requested size, came from the vault, and is the only block removed |
| MemoryBank.Bank.constructor | dali/math/memory_bank/MemoryBank.cpp:37-53 | the banks start empty and the four counters start at 0 |
| MemoryBank.Bank.DepositCpu | dali/math/memory_bank/MemoryBank.cpp:10-17 | the host vault becomes the old one with the block pushed on its size's stack; the device vault and all counters are unchanged |
| MemoryBank.Bank.AllocateCpu | dali/math/memory_bank/MemoryBank.cpp:19-35 | on a hit, the top block is returned and popped and the counters are untouched; on a miss, a new block of `amount` elements is returned, the allocation count goes up by 1 and the memory total by `amount` |
| MemoryBank.Bank.DepositGpu | dali/math/memory_bank/MemoryBank.cpp:55-59 | the device twin of `DepositCpu`; the host vault is unchanged |
| MemoryBank.Bank.AllocateGpu | dali/math/memory_bank/MemoryBank.cpp:61-76 | the device twin of `AllocateCpu`; the host vault and its counters are unchanged |
| SynchronizedMemory.ShouldComputeOnGpu | dali/math/SynchronizedMemory.cu.cpp:47-71 | the loop over the inputs returns the device rule: never without CUDA; a lone memory goes to the device when it prefers it and its device copy is fresh or neither copy is; otherwise unanimity decides, and the tie-breaker decides a split |
| SynchronizedMemory.SeveralMemoriesChoice | dali/math/SynchronizedMemory.cu.cpp:54-66 | with several memories the device is chosen iff some memory prefers it and either all do or the tie-breaker is the device |
| SynchronizedMemory.LoneFreshHostStaysOnHost | dali/math/SynchronizedMemory.cu.cpp:50-53 | a lone memory whose host copy is fresh and device copy stale is computed on the host |
| SynchronizedMemory.LazyClearKeepsDeviceData | dali/math/SynchronizedMemory.cu.cpp:202-215 | as written, a CUDA memory whose only block is on the device keeps its stale device data (7) through `lazy_clear`, so it does not read as zeros |
| SynchronizedMemory.SyncMemory.constructor | dali/math/SynchronizedMemory.cu.cpp:94-112 | requires `total % inner == 0`; nothing is allocated and no copy is fresh; size, preference and clearing flag are stored |
| SynchronizedMemory.SyncMemory.Copy | dali/math/SynchronizedMemory.cu.cpp:114-132 | the copy has the same size, preference and flag, and blocks of its own; it is initialized iff the source is (and the preferred device exists), with the source's data, host copy first |
| SynchronizedMemory.SyncMemory.AllocateCpu | dali/math/SynchronizedMemory.cu.cpp:250-260 | returns true and takes a block from the bank only on the first call; later calls return false and change nothing |
| SynchronizedMemory.SyncMemory.AllocateGpu | dali/math/SynchronizedMemory.cu.cpp:218-228 | the device twin of `AllocateCpu` |
| SynchronizedMemory.SyncMemory.ToCpu | dali/math/SynchronizedMemory.cu.cpp:262-281 | afterwards the host copy is allocated and fresh; it holds the previous logical contents when there were any; a first allocation with clearing on and no fresh device copy gives zeros; an already allocated stale block is left as it was; the device copy is untouched |
| SynchronizedMemory.SyncMemory.ToGpu | dali/math/SynchronizedMemory.cu.cpp:230-248 | the device twin of `ToCpu` |
| SynchronizedMemory.SyncMemory.CpuData | dali/math/SynchronizedMemory.cu.cpp:283-287 | returns the host block, now fresh, with the logical contents unchanged; device freshness is kept |
| SynchronizedMemory.SyncMemory.MutableCpuData | dali/math/SynchronizedMemory.cu.cpp:288-295 | as `CpuData`, and the device copy is no longer fresh |
| SynchronizedMemory.SyncMemory.GpuData | dali/math/SynchronizedMemory.cu.cpp:298-302 | returns the device block, now fresh and holding the logical contents; host freshness is kept |
| SynchronizedMemory.SyncMemory.MutableGpuData | dali/math/SynchronizedMemory.cu.cpp:303-308 | as `GpuData`, and the host copy is no longer fresh |
| SynchronizedMemory.SyncMemory.Clear | dali/math/SynchronizedMemory.cu.cpp:180-200 | sets clearing on allocation; on the preferred device (when it exists) allocates, zeroes the buffer and makes that copy the only fresh one; the other copy's block is kept |
| SynchronizedMemory.SyncMemory.LazyClear | dali/math/SynchronizedMemory.cu.cpp:202-215 | as written: sets clearing on allocation and returns at once when no host block is allocated, whatever the device holds; otherwise clears, so the memory reads as zeros when its preferred device exists, and a device-preferring memory without CUDA keeps its host block, freshness and bank unchanged |
| SynchronizedMemory.SyncMemory.LazyClearIntended | dali/math/SynchronizedMemory.cu.cpp:202-215 | with the guard testing both copies, the memory reads as zeros afterwards |
| SynchronizedMemory.SyncMemory.CopyDataFrom | dali/math/SynchronizedMemory.cu.cpp:312-326 | the data lands in a block on the preferred device, which becomes fresh; nothing happens when that device does not exist |
| SynchronizedMemory.SyncMemory.FreeCpu | dali/math/SynchronizedMemory.cu.cpp:134-143 | an allocated host block goes back to the bank and the pointer becomes null; otherwise the bank is unchanged |
| SynchronizedMemory.SyncMemory.FreeGpu | dali/math/SynchronizedMemory.cu.cpp:146-155 | the device twin of `FreeCpu` |
| TensorInternal.LastDimDividesSize | dali/math/TensorInternal.cu.cpp:9-16 | the last dimension divides the size, so the memory constructor's `total % inner == 0` check holds for every tensor built from a shape |
| TensorInternal.IndexWithin | dali/math/TensorInternal.cu.cpp:297-303 | `t[idx]` shares `t`'s memory and its element `k` is element `sub * idx + k` of `t`, inside `t` |
| TensorInternal.SliceThenIndex | dali/math/TensorInternal.cu.cpp:297-319 | row `i` of `Slice(begin, end)` is row `begin + i` of the tensor |
| TensorInternal.SliceExtent | dali/math/TensorInternal.cu.cpp:311-319 | an ordered slice has `end - begin` rows of the same sub-shape, and stays inside the tensor when `end` is within the first dimension |
| TensorInternal.SliceReversedWraps | dali/math/TensorInternal.cu.cpp:311-319 | with `end < begin` the unsigned subtraction wraps to `2^32 - (begin - end)` rows |
| TensorInternal.WholeSlice | dali/math/TensorInternal.cu.cpp:311-319 | slicing the whole first dimension gives back the same view |
| TensorInternal.RavelKeepsElements | dali/math/TensorInternal.cu.cpp:305-309 | `ravel` keeps memory, offset, element count and every element's position |
| TensorInternal.GridIsRowThenColumn | dali/math/TensorInternal.cu.cpp:188-199 | on a matrix, `t(i, j)` is element `j` of the row view `t[i]` |
| TensorInternal.ComputeMeOnGpu | dali/math/TensorInternal.cu.cpp:177-185 | true iff CUDA is on, the memory prefers the device, and its device copy is fresh or its host copy is not |
| TensorInternal.NewTensor | dali/math/TensorInternal.cu.cpp:9-16 | offset 0 and a new unallocated memory of `Size(shape)` elements in rows of the last dimension |
| TensorInternal.CopyTensor | dali/math/TensorInternal.cu.cpp:18-24 | same shape and offset; the same memory, or with `copy_memory` a new memory of its own with the same size, row length, preferred device and clearing flag, holding the source's data exactly when the source holds some and its preferred device exists |
| TensorInternal.At | dali/math/TensorInternal.cu.cpp:206-209 | returns the logical element at `offset + i`; the contents are unchanged |
| TensorInternal.At2 | dali/math/TensorInternal.cu.cpp:194-199 | returns the logical element at `offset + stride * i + j`, where the host stride is the last dimension |
| TensorInternal.Put | dali/math/TensorInternal.cu.cpp:201-204 | writing through `mutable_cpu_data` makes the host copy the only fresh one; it holds `v` at `offset + i` and every other element as before |
| TensorInternal.Put2 | dali/math/TensorInternal.cu.cpp:188-192 | as `Put`, at `offset + stride * i + j` |
| TensorInternal.Clear | dali/math/TensorInternal.cu.cpp:258-261 | every element of the view becomes 0 and the rest of the shared memory keeps its data |
| TensorInternal.ZerosTensor | dali/math/TensorInternal.cu.cpp:263-268 | a new tensor of the shape whose every element reads 0 |
| TensorAccessor.GridOf | dali/math/TensorInternal.cu.cpp:270-273 | the host view of a matrix: its grid ends at `offset + number_of_elements` and its cell `(r, c)` is the tensor's `(r, c)` position |
| TensorAccessor.SelectFromColsCpu | dali/math/TensorAccessor.h:40-50 | destination element `col` becomes `source[targets[col]][col]` for every source column; nothing else changes |
| TensorAccessor.RowsPluckCpu | dali/math/TensorAccessor.h:96-105 | destination column `idx` becomes source row `indices[idx]`; the other columns and everything outside the grid are unchanged |
| TensorAccessor.AccumulatedUnnamed | dali/math/TensorAccessor.h:151-160 | a row no index names receives nothing |
| TensorAccessor.AccumulatedOnce | dali/math/TensorAccessor.h:151-160 | a row named by exactly one index `k` receives exactly `source[c][k]` |
| TensorAccessor.AccumulatedCounts | dali/math/TensorAccessor.h:151-160 | repeated indices accumulate: with unit gradients a row receives the number of times it is named |
| TensorAccessor.RowsPluckBackpropCpu | dali/math/TensorAccessor.h:151-160 | every `dest[r][c]` gains `source[c][idx]` for each index naming `r`; rows no index names and everything outside the grid are unchanged |
| TensorAccessor.HostBlocks | dali/math/TensorAccessor.h:63 | `mutable_cpu_data` on the destination and `cpu_data` on the source, which C++ evaluates in an unspecified order (the model calls them in that order, and the contract holds for either): two distinct fresh host blocks, the destination's the only fresh copy, both contents kept |
| TensorAccessor.SelectFromCols | dali/math/TensorAccessor.h:53-64 | the host branch: the destination's logical contents get `source(targets[col], col)` at `offset + col`, and everything else is unchanged |
| TensorAccessor.RowsPluck | dali/math/TensorAccessor.h:108-119 | the host branch: the destination's logical cell `(c, idx)` becomes the source's `(indices[idx], c)` |
| TensorAccessor.RowsPluckBackprop | dali/math/TensorAccessor.h:163-174 | the host branch: the destination's logical cells gain the accumulated source columns |
| MshadowWrapper.Remap | dali/array/function/args/mshadow_wrapper.h:99-108 | the remapped `(new_i, new_j)`, read through a row-major source of row width `shape[last]`, reaches the strided offset of `i` plus `j * strides[last]` |
| MshadowWrapper.OffsetOfDense | dali/array/function/args/mshadow_wrapper.h:102-105 | with row-major strides scaled by `m`, the derived offset of `i` is `m * (i mod the product of the dimensions)` |
| MshadowWrapper.DenseRemapIsIdentity | dali/array/function/args/mshadow_wrapper.h:99-108 | with contiguous row-major strides, `map_indices_using_stride` maps every in-range `(i, j)` to itself |
| MshadowWrapper.MakeWrapper | dali/array/function/args/mshadow_wrapper.h:38-46 | the wrapper is built iff the source's last dimension equals its stride and the array has at most `DALI_MAX_STRIDED_DIMENSION` dimensions; a refusal names the stride mismatch when there is one, and otherwise too many dimensions |
| MshadowWrapper.Plan.constructor | dali/array/function/args/mshadow_wrapper.h:88-97 | `ndim` and `has_strides` come from the array, and the first `ndim` shape (and stride) entries are copied into the fixed-size arrays |
| MshadowWrapper.Plan.MapIndicesUsingStride | dali/array/function/args/mshadow_wrapper.h:99-108 | the loop over dimensions `ndim - 2` down to 0 returns exactly `Remap(i, j)` |
| MshadowWrapper.Plan.Eval | dali/array/function/args/mshadow_wrapper.h:120-128 | reads the source at the plan's position: `(i, j)` directly without strides, the remapped pair with them |
| MshadowWrapper.Plan.REval | dali/array/function/args/mshadow_wrapper.h:110-118 | writes the source at that same position and nowhere else |
| MshadowWrapper.StridedPosition | dali/array/function/args/mshadow_wrapper.h:110-128 | with strides, the element reached is the strided offset of `i` plus `j * strides[last]` |
| MshadowWrapper.DenseStridesChangeNothing | dali/array/function/args/mshadow_wrapper.h:110-128 | contiguous row-major strides reach the same element as no strides at all |
| CharacterPrediction.CharOf | cpp/examples/character_prediction.cpp:32 | a byte read into a signed `char` lies in `-128..127`, and equals EOF exactly for byte 0xFF |
| CharacterPrediction.BeforeFF | cpp/examples/character_prediction.cpp:40-53 | the bytes read before the loop stops form a prefix of the file with no 0xFF, followed by a 0xFF or by the end of the file |
| CharacterPrediction.LineCount | cpp/examples/character_prediction.cpp:42-48 | one line per newline read, plus one |
| CharacterPrediction.PiecesHaveNoLinebreak | cpp/examples/character_prediction.cpp:42-52 | a newline is never turned into a token |
| CharacterPrediction.JoinSplit | cpp/examples/character_prediction.cpp:40-53 | joining the pieces of the lines with newlines gives back the codes read, so nothing is lost or reordered |
| CharacterPrediction.ReadingIsFramed | cpp/examples/character_prediction.cpp:40-53 | reading the codes one at a time, a newline closing the line with `postpad` and opening a new one with `[0, 0, prepad]`, gives the framed lines of the whole input |
| CharacterPrediction.EmptyInput | cpp/examples/character_prediction.cpp:35-40 | an empty file, or one that cannot be opened, gives the single line `[0, 0, prepad]` |
| CharacterPrediction.LinesOfFile | cpp/examples/character_prediction.cpp:36-54 | every line opens with `[0, 0, prepad]`, every line but the last ends with `postpad`, and the count is newlines read plus one |
| CharacterPrediction.StopsAtByteFF | cpp/examples/character_prediction.cpp:32-52 | a file starting with bytes 0xFF 0x61 yields only `[0, 0, prepad]` as written, while an `int` character reads both bytes |
| CharacterPrediction.HighByteGivesNegativeToken | cpp/examples/character_prediction.cpp:32-52 | byte 0x80 yields token -128, which is not a vocabulary index |
| CharacterPrediction.IntendedTokensInVocabulary | cpp/examples/character_prediction.cpp:52 | with an `int` character every token lies in `0 .. vocab_size - 1` |
| CharacterPrediction.GetCharacterSequences | cpp/examples/character_prediction.cpp:31-55 | the reading loop as written returns the framed lines of the bytes before the first 0xFF (none when the file is not open) |
| CharacterPrediction.GetCharacterSequencesIntended | cpp/examples/character_prediction.cpp:31-55 | with an `int` character the loop returns the framed lines of the whole file, one more line than there are newlines |
| WikiAnswerGenerate.Subjects | data/wikianswers/wikianswer_generate.py:46-47 | an entry is kept iff it is a directory whose name starts with 'S' |
| WikiAnswerGenerate.SubjectsKeepOrder | data/wikianswers/wikianswer_generate.py:46-47 | the filter keeps the listing order |
| WikiAnswerGenerate.JoinSplit | data/wikianswers/wikianswer_generate.py:61 | joining the tab-separated fields with tabs gives the line back |
| WikiAnswerGenerate.FieldCount | data/wikianswers/wikianswer_generate.py:61 | a line has one field more than it has tabs, and no field holds a tab |
| WikiAnswerGenerate.ExtractMeaning | data/wikianswers/wikianswer_generate.py:55-62 | a file is read through iff every line after the first has at least three fields; it then gives two output strings per row, field 1 then field 2 each followed by a newline, in row order; otherwise the first short row stops it |
| WikiAnswerGenerate.TerminatorKept | data/wikianswers/wikianswer_generate.py:55-62 | a row `q\ta\tb` with tab-free fields gives `a + "\n"` and `b + "\n"`, so a third field that ends the line keeps the line's terminator before the added newline |
| WikiAnswerGenerate.CollectMeaning | data/wikianswers/wikianswer_generate.py:51-62 | the run completes iff every subject directory has its data file and all rows have at least three fields; the output is then the pairs of all rows, in directory order then row order; each failure names a directory (and a line) that causes it |
| WikiAnswerGenerate.CollectStopsAtFirstFailure | data/wikianswers/wikianswer_generate.py:52-62 | a failed run names the first failing directory in listing order: every earlier directory has its data file and only usable rows, and a short row is the first unusable data row of its file |
| WikiAnswerGenerate.NoSubjects | data/wikianswers/wikianswer_generate.py:46-49 | the script aborts with no subject directories iff no entry is a directory starting with 'S' |
| WikiAnswerGenerate.PairCountIsRows | data/wikianswers/wikianswer_generate.py:62-64 | the reported pair count, half the number of output strings, is the number of data rows |
| WikiAnswerGenerate.ReadPairs | data/wikianswers/wikianswer_generate.py:55-62 | the loop over one file's lines, with the `first` flag that skips the header, ends exactly as reading the file does: all its pairs in row order, or the first short row |
| WikiAnswerGenerate.GenerateDataset | data/wikianswers/wikianswer_generate.py:46-64 | the loop over the directories ends exactly as the run over the listing does: no subject directory, a missing data file, a short row, or all pairs in directory order |

## Left out

- GPU kernels: the thrust versions of the three accessor kernels and the device branch of their dispatchers. These are foreign library code. The dispatchers require the source not to be computed on the device.
- `cached_allocator` in `MemoryBank.cpp`: a thrust allocator adaptor, outside the model.
- The mutex and the atomic counters of the memory bank. The bank is modelled sequentially.
- Negative `amount` values in the bank. Sizes are natural numbers, and a block filed under a size holds that many elements.
- The device-to-host and host-to-device `Copy` calls. Each is modelled as a whole-buffer copy of the fresh data.
- TensorInternal.NewTensor and SynchronizedMemory.SyncMemory.constructor: both require a last dimension, or row length, above zero. A shape whose last dimension is 0 reaches `total_memory % inner_dimension` with a zero divisor (`dali/math/SynchronizedMemory.cu.cpp:111`), which is undefined in C++. Empty shapes with a zero leading dimension, such as `(0, 5)`, are covered.
- `SynchronizedMemory.h` (default arguments, `dummy_cpu`/`dummy_gpu`) is not part of this model. The constructor takes every argument explicitly.
- The destructor's `free_cpu` call.
- SynchronizedMemory.SyncMemory.FreeCpu: the memory's own invariant is not re-established, because the source leaves `cpu_fresh` set while freeing the block.
- SynchronizedMemory.SyncMemory.FreeGpu: the memory's own invariant is not re-established, for the same reason.
- SynchronizedMemory.SyncMemory.CopyDataFrom: requires a memory with no fresh copy. The source only calls it from the copy constructor, on a new memory.
- `operator=(R)`, `operator=(lazy_t)` and the `TensorOps` reductions (`sum`, `argmin`, `argmax`, `L2_norm`, `allclose`, `operator==`). They go through mshadow and lazy-expression headers that are not part of this model. `clear` is modelled by its effect on the host copy.
- `print`, `data()`, and the `memory()` accessors: printing, or plain pointer access already covered by `At`/`Put`.
- Index and offset arithmetic in 32 bits. Only the first dimension of `Slice` wraps as unsigned; the offsets of `operator[]`, `Slice` and `map_indices_using_stride` are unbounded here.
- The index tensor of `rows_pluck` and `rows_pluck_backprop` is given as a sequence of naturals. The source takes it by value as a non-const `TensorInternal<int,1>`, whose memory it shares with the caller's. So each `indices(idx)` read goes through the non-const `operator()(int)` and calls `mutable_cpu_data` (`dali/math/TensorInternal.cu.cpp:202-204`). That side effect is not modelled: the index memory's host copy is refreshed, and under CUDA its `gpu_fresh` flag is cleared, so the device copy of the indices counts as stale afterwards.
- TensorAccessor.SelectFromCols: requires distinct memories that share no block. Aliased destination and source are not modelled.
- TensorAccessor.RowsPluck: requires distinct memories that share no block, and indices that fit the shapes. The source does not check these bounds.
- TensorAccessor.RowsPluckBackprop: requires distinct memories that share no block, and indices that fit the shapes.
- The CUDA path of `MshadowWrapper`, and mshadow's `ShapeCheck` and `MakePlan` for the wrapped tensor. The source plan is a row-major array of row width `shape[last]`.
- Strides are natural numbers. Negative strides are not modelled.
- The training, validation and model-building parts of `character_prediction.cpp`, including its threads. So is the opening of the file in read-write mode: the model only takes whether it could be opened.
- Floating point: all element values are integers.
- Downloading, unpacking, listing, reading with the Windows encoding and writing the output file in `wikianswer_generate.py`. The listing and the file lines are inputs; the output lines are the result.
- WikiAnswerGenerate.GenerateDataset: the pairs of one file are added to the output once that file has been read, not line by line as they are found. A short row stops the run either way, so the finished output is the same.
- The lines of the written output file. The model's output is the list of strings that `f.writelines` writes as they are. When a row's third field is its last, that string already ends with the row's terminator (`TerminatorKept`). For a row ending in `\n` or `\r\n` the file then gets an extra blank line, so two output strings per row are not always two file lines. A row ending in a lone `\r` gives `b\r\n`, a single file line.
- The printed pair count message. The count itself is `PairCount`.

## Findings

| source | as written | input that shows it | evidently intended | confidence | as-written member | corrected member |
|---|---|---|---|---|---|---|
| dali/math/SynchronizedMemory.cu.cpp:206 | under CUDA the early return tests `!allocated_cpu && !allocated_cpu` | a device-preferring memory whose only block is on the device and holds 7: `lazy_clear` returns without clearing and the next read sees 7 | `!allocated_cpu && !allocated_gpu`, so that a device-only buffer is cleared | not executed; the duplicated operand is visible in the text | SynchronizedMemory.LazyClearKeepsDeviceData | SynchronizedMemory.SyncMemory.LazyClearIntended |
| cpp/examples/character_prediction.cpp:32 | the result of `file.get()` is stored in a `char` and compared with `EOF` | bytes 0xFF 0x61: on a signed-`char` platform the 0xFF compares equal to `EOF` and the rest of the file is dropped | store it in an `int`, so that only the real end of file stops the loop | not executed; depends on `char` being signed, as on x86 | CharacterPrediction.StopsAtByteFF | CharacterPrediction.GetCharacterSequencesIntended |
| cpp/examples/character_prediction.cpp:52 | `(int)ch` of a signed `char` is clamped only from above | byte 0x80 becomes token -128, below every vocabulary index | a token in `0 .. vocab_size - 1` for every byte | not executed; depends on `char` being signed, as on x86 | CharacterPrediction.HighByteGivesNegativeToken | CharacterPrediction.IntendedTokensInVocabulary |

=== FILE: character_prediction.dfy ===
/** The character-sequence reader of the character prediction example: a
    file is read one `char` at a time and cut into lines at each newline;
    each line becomes the integer sequence `[0, 0, prepad, tokens...]`,
    closed by `postpad` when a newline ends it.  The file is given by its
    bytes and by whether it could be opened. */
module CharacterPrediction {

  type Byte = b: int | 0 <= b < 256

  /** The value `istream::get` returns at the end of the stream. */
  const EOF: int := -1

  const Linebreak: int := 10

  /** A byte read into a signed `char`: bytes from 0x80 up are negative. */
  function CharOf(b: Byte): (c: int)
    ensures -128 <= c < 128
    ensures c == EOF <==> b == 0xFF
  {
    if b >= 128 then b - 256 else b
  }

  function Signed(bs: seq<Byte>): (cs: seq<int>)
    ensures |cs| == |bs| && forall k :: 0 <= k < |bs| ==> cs[k] == CharOf(bs[k])
  {
    seq(|bs|, k requires 0 <= k < |bs| => CharOf(bs[k]))
  }

  function Unsigned(bs: seq<Byte>): (cs: seq<int>)
    ensures |cs| == |bs| && forall k :: 0 <= k < |bs| ==> cs[k] == bs[k]
  {
    seq(|bs|, k requires 0 <= k < |bs| => bs[k] as int)
  }

  /** The bytes before the first 0xFF. */
  function BeforeFF(bs: seq<Byte>): (r: seq<Byte>)
    ensures |r| <= |bs| && r == bs[..|r|] && 0xFF !in r
    ensures |r| < |bs| ==> bs[|r|] == 0xFF
  {
    if |bs| == 0 || bs[0] == 0xFF then [] else [bs[0]] + BeforeFF(bs[1..])
  }

  /** The codes between newlines, in order; `k` newlines give `k + 1` pieces. */
  function SplitLines(cs: seq<int>): (pieces: seq<seq<int>>)
    ensures |pieces| >= 1
  {
    if |cs| == 0 then [[]]
    else if cs[0] == Linebreak then [[]] + SplitLines(cs[1..])
    else
      var rest := SplitLines(cs[1..]);
      [[cs[0]] + rest[0]] + rest[1..]
  }

  /** Glue pieces back together with newlines between them. */
  function JoinLines(pieces: seq<seq<int>>): seq<int>
    requires |pieces| >= 1
  {
    if |pieces| == 1 then pieces[0] else pieces[0] + [Linebreak] + JoinLines(pieces[1..])
  }

  function Token(c: int, vocabSize: int): int
  {
    if vocabSize - 1 < c then vocabSize - 1 else c
  }

  function Tokens(piece: seq<int>, vocabSize: int): (ts: seq<int>)
    ensures |ts| == |piece| && forall k :: 0 <= k < |piece| ==> ts[k] == Token(piece[k], vocabSize)
  {
    seq(|piece|, k requires 0 <= k < |piece| => Token(piece[k], vocabSize))
  }

  /** The produced lines for the given pieces: each starts `[0, 0, prepad]`,
      carries its tokens, and all but the last are closed by `postpad`. */
  function Framed(pieces: seq<seq<int>>, prepad: int, postpad: int, vocabSize: int): (lines: seq<seq<int>>)
    ensures |lines| == |pieces|
  {
    seq(|pieces|, k requires 0 <= k < |pieces| =>
      [0, 0, prepad] + Tokens(pieces[k], vocabSize) + (if k < |pieces| - 1 then [postpad] else []))
  }

  /** `line->push_back(x)` on the last line. */
  function PushBack(lines: seq<seq<int>>, x: int): (r: seq<seq<int>>)
    requires |lines| >= 1
    ensures |r| == |lines| && r[..|r| - 1] == lines[..|lines| - 1] && r[|r| - 1] == lines[|lines| - 1] + [x]
  {
    lines[..|lines| - 1] + [lines[|lines| - 1] + [x]]
  }

  /** What the reader returns as written: a file that cannot be opened reads
      as empty, and reading stops at the first byte that the signed `char`
      confuses with EOF. */
  function Sequences(contents: seq<Byte>, isOpen: bool, prepad: int, postpad: int, vocabSize: int): seq<seq<int>>
  {
    if isOpen then Framed(SplitLines(Signed(BeforeFF(contents))), prepad, postpad, vocabSize)
    else Framed(SplitLines([]), prepad, postpad, vocabSize)
  }

  /** What the reader returns when the character is held in an `int`:
      every byte is read, with its unsigned value. */
  function SequencesIntended(contents: seq<Byte>, isOpen: bool, prepad: int, postpad: int, vocabSize: int): seq<seq<int>>
  {
    if isOpen then Framed(SplitLines(Unsigned(contents)), prepad, postpad, vocabSize)
    else Framed(SplitLines([]), prepad, postpad, vocabSize)
  }

  /** An empty input is one empty piece, framed as `[0, 0, prepad]`. */
  lemma FramedNothing(prepad: int, postpad: int, vocabSize: int)
    ensures Framed(SplitLines([]), prepad, postpad, vocabSize) == [[0, 0, prepad]]
  {
    assert SplitLines([]) == [[]];
    var f := Framed([[]], prepad, postpad, vocabSize);
    assert Tokens([], vocabSize) == [];
    assert f[0] == [0, 0, prepad] + [] + [] == [0, 0, prepad];
    assert f == [f[0]];
  }

  /** Gluing a code onto the first piece commutes with a push onto the last. */
  lemma MergePushBack(x: int, tail: seq<seq<int>>, c: int)
    requires |tail| >= 1
    ensures [[x] + PushBack(tail, c)[0]] + PushBack(tail, c)[1..] == PushBack([[x] + tail[0]] + tail[1..], c)
  {
    if |tail| > 1 {
      assert PushBack(tail, c)[1..] == PushBack(tail[1..], c);
    } else {
      assert [x] + (tail[0] + [c]) == [x] + tail[0] + [c];
    }
  }

  /** Gluing a code onto the first piece commutes with a new empty last piece. */
  lemma MergeAppend(x: int, tail: seq<seq<int>>)
    requires |tail| >= 1
    ensures [[x] + (tail + [[]])[0]] + (tail + [[]])[1..] == [[x] + tail[0]] + tail[1..] + [[]]
  {
    assert (tail + [[]])[1..] == tail[1..] + [[]];
  }

  /** Splitting the codes read so far plus one more code. */
  lemma {:induction false} SplitLinesSnoc(cs: seq<int>, c: int)
    ensures c == Linebreak ==> SplitLines(cs + [c]) == SplitLines(cs) + [[]]
    ensures c != Linebreak ==> SplitLines(cs + [c]) == PushBack(SplitLines(cs), c)
  {
    if |cs| == 0 {
      assert cs + [c] == [c];
      assert [c][1..] == [];
      assert SplitLines([]) == [[]];
      assert [c] + [] == [] + [c];
    } else {
      var tail := SplitLines(cs[1..]);
      SplitLinesSnoc(cs[1..], c);
      assert (cs + [c])[1..] == cs[1..] + [c];
      if cs[0] == Linebreak {
        if c != Linebreak {
          assert [[]] + PushBack(tail, c) == PushBack([[]] + tail, c);
        }
      } else if c == Linebreak {
        MergeAppend(cs[0], tail);
      } else {
        MergePushBack(cs[0], tail, c);
      }
    }
  }

  /** Framing the pieces after one more code. */
  lemma FramedSnoc(pieces: seq<seq<int>>, c: int, prepad: int, postpad: int, vocabSize: int)
    requires |pieces| >= 1
    ensures Framed(pieces + [[]], prepad, postpad, vocabSize) ==
            PushBack(Framed(pieces, prepad, postpad, vocabSize), postpad) + [[0, 0, prepad]]
    ensures Framed(PushBack(pieces, c), prepad, postpad, vocabSize) ==
            PushBack(Framed(pieces, prepad, postpad, vocabSize), Token(c, vocabSize))
  {
    var last := |pieces| - 1;
    var before := Framed(pieces, prepad, postpad, vocabSize);
    assert Tokens([], vocabSize) == [];
    var more := Framed(pieces + [[]], prepad, postpad, vocabSize);
    var pushed := PushBack(before, postpad) + [[0, 0, prepad]];
    assert |more| == |pushed|;
    forall k | 0 <= k < |more|
      ensures more[k] == pushed[k]
    {
      if k < last {
        assert (pieces + [[]])[k] == pieces[k];
      } else if k == last {
        assert (pieces + [[]])[k] == pieces[k];
      }
    }
    assert Tokens(pieces[last] + [c], vocabSize) == Tokens(pieces[last], vocabSize) + [Token(c, vocabSize)];
    var grown := Framed(PushBack(pieces, c), prepad, postpad, vocabSize);
    var extended := PushBack(before, Token(c, vocabSize));
    assert |grown| == |extended|;
    forall k | 0 <= k < |grown|
      ensures grown[k] == extended[k]
    {
      if k < last {
        assert PushBack(pieces, c)[k] == pieces[k];
      }
    }
  }

  /** There is one line per newline, plus one. */
  lemma {:induction false} LineCount(cs: seq<int>)
    ensures |SplitLines(cs)| == multiset(cs)[Linebreak] + 1
  {
    if |cs| > 0 {
      LineCount(cs[1..]);
      assert cs == [cs[0]] + cs[1..];
    }
  }

  /** No piece holds a newline. */
  lemma {:induction false} PiecesHaveNoLinebreak(cs: seq<int>)
    ensures forall k :: 0 <= k < |SplitLines(cs)| ==> Linebreak !in SplitLines(cs)[k]
  {
    if |cs| > 0 {
      PiecesHaveNoLinebreak(cs[1..]);
    }
  }

  /** Joining the pieces with newlines gives back the codes: nothing is
      lost and the order is kept. */
  lemma {:induction false} JoinSplit(cs: seq<int>)
    ensures JoinLines(SplitLines(cs)) == cs
  {
    if |cs| > 0 {
      JoinSplit(cs[1..]);
      if cs[0] != Linebreak {
        var rest := SplitLines(cs[1..]);
        if |rest| > 1 {
          assert ([[cs[0]] + rest[0]] + rest[1..])[1..] == rest[1..];
        }
      }
    }
  }

  /** An empty file, or one that cannot be opened, gives the single line
      `[0, 0, prepad]`. */
  lemma EmptyInput(isOpen: bool, prepad: int, postpad: int, vocabSize: int)
    ensures Sequences([], isOpen, prepad, postpad, vocabSize) == [[0, 0, prepad]]
    ensures SequencesIntended([], isOpen, prepad, postpad, vocabSize) == [[0, 0, prepad]]
  {
    var none: seq<Byte> := [];
    assert Signed(BeforeFF(none)) == [];
    assert Unsigned(none) == [];
    FramedNothing(prepad, postpad, vocabSize);
  }

  /** Every token of every line is an index into the vocabulary. */
  predicate InVocabulary(lines: seq<seq<int>>, vocabSize: int)
  {
    forall k, t :: 0 <= k < |lines| && 3 <= t < |lines[k]| - (if k < |lines| - 1 then 1 else 0) ==>
      0 <= lines[k][t] < vocabSize
  }

  /** Read through a signed `char`, a 0xFF byte ends the input early, while
      held in an `int` it is read as a character like any other. */
  lemma StopsAtByteFF(prepad: int, postpad: int, vocabSize: int)
    ensures Sequences([0xFF, 0x61], true, prepad, postpad, vocabSize) == [[0, 0, prepad]]
    ensures SequencesIntended([0xFF, 0x61], true, prepad, postpad, vocabSize) ==
            [[0, 0, prepad, Token(0xFF, vocabSize), Token(0x61, vocabSize)]]
  {
    var input: seq<Byte> := [0xFF, 0x61];
    assert BeforeFF(input) == [];
    assert Signed([]) == [];
    FramedNothing(prepad, postpad, vocabSize);
    var u := Unsigned(input);
    assert u == [0xFF, 0x61];
    assert u[1..] == [0x61] && u[1..][1..] == [];
    assert SplitLines(u[1..][1..]) == [[]];
    assert [0x61] + [] == [0x61];
    assert SplitLines(u[1..]) == [[0x61]];
    assert [0xFF] + [0x61] == [0xFF, 0x61];
    assert SplitLines(u) == [[0xFF, 0x61]];
    var f := Framed([[0xFF, 0x61]], prepad, postpad, vocabSize);
    assert Tokens([0xFF, 0x61], vocabSize) == [Token(0xFF, vocabSize), Token(0x61, vocabSize)];
    assert f[0] == [0, 0, prepad, Token(0xFF, vocabSize), Token(0x61, vocabSize)];
    assert f == [f[0]];
  }

  /** Read through a signed `char`, a byte from 0x80 up becomes a negative
      token, which is no vocabulary index. */
  lemma HighByteGivesNegativeToken(prepad: int, postpad: int)
    ensures Sequences([0x80], true, prepad, postpad, 256) == [[0, 0, prepad, -128]]
    ensures !InVocabulary(Sequences([0x80], true, prepad, postpad, 256), 256)
  {
    var input: seq<Byte> := [0x80];
    assert BeforeFF(input[1..]) == [];
    assert BeforeFF(input) == [0x80];
    var s := Signed(input);
    assert s == [-128];
    assert s[1..] == [];
    assert SplitLines(s[1..]) == [[]];
    assert [-128] + [] == [-128];
    assert SplitLines(s) == [[-128]];
    var f := Framed([[-128]], prepad, postpad, 256);
    assert Tokens([-128], 256) == [-128];
    assert f[0] == [0, 0, prepad, -128];
    assert f == [f[0]];
    assert f[0][3] == -128;
  }

  /** Held in an `int`, every token of every line is a vocabulary index. */
  lemma IntendedTokensInVocabulary(contents: seq<Byte>, isOpen: bool, prepad: int, postpad: int, vocabSize: int)
    requires vocabSize >= 1
    ensures InVocabulary(SequencesIntended(contents, isOpen, prepad, postpad, vocabSize), vocabSize)
  {
    var cs := if isOpen then Unsigned(contents) else [];
    var pieces := SplitLines(cs);
    var lines := SequencesIntended(contents, isOpen, prepad, postpad, vocabSize);
    assert lines == Framed(pieces, prepad, postpad, vocabSize);
    PiecesAreFrom(cs);
    forall k, t | 0 <= k < |lines| && 3 <= t < |lines[k]| - (if k < |lines| - 1 then 1 else 0)
      ensures 0 <= lines[k][t] < vocabSize
    {
      var piece := pieces[k];
      assert lines[k][t] == Tokens(piece, vocabSize)[t - 3];
      assert |lines[k]| == 3 + |piece| + (if k < |pieces| - 1 then 1 else 0);
      assert piece[t - 3] in piece;
      assert piece[t - 3] in cs;
      var i :| 0 <= i < |cs| && cs[i] == piece[t - 3];
    }
  }

  /** The shape of what the reader returns: one line per newline read,
      plus one; every line opens with `[0, 0, prepad]`; every line but the
      last is closed by `postpad`. */
  lemma LinesOfFile(contents: seq<Byte>, isOpen: bool, prepad: int, postpad: int, vocabSize: int)
    ensures var lines := Sequences(contents, isOpen, prepad, postpad, vocabSize);
            && |lines| == (if isOpen then multiset(Signed(BeforeFF(contents)))[Linebreak] else 0) + 1
            && (forall k :: 0 <= k < |lines| ==> |lines[k]| >= 3 && lines[k][..3] == [0, 0, prepad])
            && (forall k :: 0 <= k < |lines| - 1 ==> lines[k][|lines[k]| - 1] == postpad)
  {
    var cs := if isOpen then Signed(BeforeFF(contents)) else [];
    var pieces := SplitLines(cs);
    var lines := Sequences(contents, isOpen, prepad, postpad, vocabSize);
    assert lines == Framed(pieces, prepad, postpad, vocabSize);
    LineCount(cs);
    forall k | 0 <= k < |lines|
      ensures |lines[k]| >= 3 && lines[k][..3] == [0, 0, prepad]
      ensures k < |lines| - 1 ==> lines[k][|lines[k]| - 1] == postpad
    {
      var tail := Tokens(pieces[k], vocabSize) + (if k < |pieces| - 1 then [postpad] else []);
      assert lines[k] == [0, 0, prepad] + tail;
    }
  }

  /** Every code in a piece comes from the input. */
  lemma {:induction false} PiecesAreFrom(cs: seq<int>)
    ensures forall k, c :: 0 <= k < |SplitLines(cs)| && c in SplitLines(cs)[k] ==> c in cs
  {
    if |cs| > 0 {
      var rest := SplitLines(cs[1..]);
      PiecesAreFrom(cs[1..]);
      var pieces := SplitLines(cs);
      forall k, c | 0 <= k < |pieces| && c in pieces[k]
        ensures c in cs
      {
        assert cs == [cs[0]] + cs[1..];
        if cs[0] == Linebreak {
          assert pieces[k] == ([[]] + rest)[k];
          assert k > 0 && pieces[k] == rest[k - 1];
        } else if k == 0 {
          assert pieces[0] == [cs[0]] + rest[0];
        } else {
          assert pieces[k] == rest[k];
        }
      }
    }
  }

  /** What one code read does to the lines: a newline closes the last line
      with `postpad` and opens `[0, 0, prepad]`; any other code is pushed
      as a token. */
  function Step(lines: seq<seq<int>>, ch: int, prepad: int, postpad: int, vocabSize: int): (r: seq<seq<int>>)
    requires |lines| >= 1
    ensures |r| >= 1
  {
    if ch == Linebreak then PushBack(PushBack(lines, postpad) + [[0, 0]], prepad)
    else PushBack(lines, Token(ch, vocabSize))
  }

  /** The lines after reading the codes `cs` one at a time, starting from
      `[[0, 0, prepad]]`. */
  function Reading(cs: seq<int>, prepad: int, postpad: int, vocabSize: int): (lines: seq<seq<int>>)
    ensures |lines| >= 1
  {
    if |cs| == 0 then PushBack([[0, 0]], prepad)
    else Step(Reading(cs[..|cs| - 1], prepad, postpad, vocabSize), cs[|cs| - 1], prepad, postpad, vocabSize)
  }

  /** One more code read: the lines for the longer input are the lines so
      far, extended the way the loop extends them. */
  lemma Advance(cs: seq<int>, ch: int, lines: seq<seq<int>>, prepad: int, postpad: int, vocabSize: int)
    requires lines == Framed(SplitLines(cs), prepad, postpad, vocabSize)
    ensures Framed(SplitLines(cs + [ch]), prepad, postpad, vocabSize) == Step(lines, ch, prepad, postpad, vocabSize)
  {
    SplitLinesSnoc(cs, ch);
    FramedSnoc(SplitLines(cs), ch, prepad, postpad, vocabSize);
    var closed := PushBack(lines, postpad);
    assert (closed + [[0, 0]])[..|closed|] == closed;
    assert [0, 0] + [prepad] == [0, 0, prepad];
    assert PushBack(closed + [[0, 0]], prepad) == closed + [[0, 0, prepad]];
  }

  /** Reading code by code gives the framed lines of the whole input: the
      loop's step-by-step view and the line-by-line view agree. */
  lemma {:induction false} ReadingIsFramed(cs: seq<int>, prepad: int, postpad: int, vocabSize: int)
    ensures Reading(cs, prepad, postpad, vocabSize) == Framed(SplitLines(cs), prepad, postpad, vocabSize)
    decreases |cs|
  {
    if |cs| == 0 {
      assert [0, 0] + [prepad] == [0, 0, prepad];
      FramedNothing(prepad, postpad, vocabSize);
    } else {
      var init := cs[..|cs| - 1];
      ReadingIsFramed(init, prepad, postpad, vocabSize);
      assert init + [cs[|cs| - 1]] == cs;
      Advance(init, cs[|cs| - 1], Reading(init, prepad, postpad, vocabSize), prepad, postpad, vocabSize);
    }
  }

  /** Reading one more byte as a signed `char`: a newline closes the last
      line with `postpad` and opens a new one, any other code appends its
      token to the last line. */
  lemma ReadSigned(contents: seq<Byte>, pos: nat, lines: seq<seq<int>>, prepad: int, postpad: int, vocabSize: int)
    requires pos < |contents| && lines == Reading(Signed(contents[..pos]), prepad, postpad, vocabSize)
    ensures CharOf(contents[pos]) == Linebreak ==>
              Reading(Signed(contents[..pos + 1]), prepad, postpad, vocabSize) ==
              PushBack(PushBack(lines, postpad) + [[0, 0]], prepad)
    ensures CharOf(contents[pos]) != Linebreak ==>
              Reading(Signed(contents[..pos + 1]), prepad, postpad, vocabSize) ==
              PushBack(lines, Token(CharOf(contents[pos]), vocabSize))
  {
    assert Signed(contents[..pos + 1])[..pos] == Signed(contents[..pos]);
  }

  /** The same, with the byte read as an `int`. */
  lemma ReadUnsigned(contents: seq<Byte>, pos: nat, lines: seq<seq<int>>, prepad: int, postpad: int, vocabSize: int)
    requires pos < |contents| && lines == Reading(Unsigned(contents[..pos]), prepad, postpad, vocabSize)
    ensures contents[pos] as int == Linebreak ==>
              Reading(Unsigned(contents[..pos + 1]), prepad, postpad, vocabSize) ==
              PushBack(PushBack(lines, postpad) + [[0, 0]], prepad)
    ensures contents[pos] as int != Linebreak ==>
              Reading(Unsigned(contents[..pos + 1]), prepad, postpad, vocabSize) ==
              PushBack(lines, Token(contents[pos] as int, vocabSize))
  {
    assert Unsigned(contents[..pos + 1])[..pos] == Unsigned(contents[..pos]);
  }

  /** `get_character_sequences`: the reading loop with the character held
      in a signed `char`, as written. */
  method GetCharacterSequences(contents: seq<Byte>, isOpen: bool, prepad: int, postpad: int, vocabSize: int)
    returns (lines: seq<seq<int>>)
    ensures lines == Sequences(contents, isOpen, prepad, postpad, vocabSize)
  {
    lines := [[0, 0]];
    lines := PushBack(lines, prepad);
    var good := isOpen;
    var pos := 0;
    while good
      invariant 0 <= pos <= |BeforeFF(contents)|
      invariant good == isOpen && (!isOpen ==> pos == 0)
      invariant lines == Reading(Signed(contents[..pos]), prepad, postpad, vocabSize)
      decreases |contents| - pos
    {
      var ch: int := if pos < |contents| then CharOf(contents[pos]) else EOF;
      if pos == |contents| {
        good := false;
      }
      if ch == Linebreak {
        ReadSigned(contents, pos, lines, prepad, postpad, vocabSize);
        PastFF(contents, pos);
        lines := PushBack(lines, postpad);
        lines := lines + [[0, 0]];
        lines := PushBack(lines, prepad);
        pos := pos + 1;
        continue;
      }
      if ch == EOF {
        break;
      }
      ReadSigned(contents, pos, lines, prepad, postpad, vocabSize);
      lines := PushBack(lines, Token(ch, vocabSize));
      pos := pos + 1;
    }
    Stopped(contents, isOpen, pos, lines, prepad, postpad, vocabSize);
  }

  /** A byte other than 0xFF inside the run before the first 0xFF extends it. */
  lemma PastFF(contents: seq<Byte>, pos: nat)
    requires pos < |contents| && pos <= |BeforeFF(contents)| && CharOf(contents[pos]) != EOF
    ensures pos + 1 <= |BeforeFF(contents)|
  {
  }

  /** When the loop stops, the bytes it has read are exactly the bytes
      before the first 0xFF, or none when the file is not open. */
  lemma Stopped(contents: seq<Byte>, isOpen: bool, pos: nat, lines: seq<seq<int>>, prepad: int, postpad: int, vocabSize: int)
    requires pos <= |BeforeFF(contents)|
    requires isOpen ==> pos == |contents| || contents[pos] == 0xFF
    requires !isOpen ==> pos == 0
    requires lines == Reading(Signed(contents[..pos]), prepad, postpad, vocabSize)
    ensures lines == Sequences(contents, isOpen, prepad, postpad, vocabSize)
  {
    ReadingIsFramed(Signed(contents[..pos]), prepad, postpad, vocabSize);
    if isOpen {
      assert BeforeFF(contents) == contents[..pos];
    } else {
      assert Signed(contents[..pos]) == [];
    }
  }

  /** The reading loop with the character held in an `int`: the loop stops
      only at the real end of the file and every byte keeps its unsigned
      value. */
  method GetCharacterSequencesIntended(contents: seq<Byte>, isOpen: bool, prepad: int, postpad: int, vocabSize: int)
    returns (lines: seq<seq<int>>)
    ensures lines == SequencesIntended(contents, isOpen, prepad, postpad, vocabSize)
    ensures |lines| == (if isOpen then multiset(contents)[Linebreak] else 0) + 1
  {
    lines := [[0, 0]];
    lines := PushBack(lines, prepad);
    var good := isOpen;
    var pos := 0;
    while good
      invariant 0 <= pos <= |contents|
      invariant good == isOpen && (!isOpen ==> pos == 0)
      invariant lines == Reading(Unsigned(contents[..pos]), prepad, postpad, vocabSize)
      decreases |contents| - pos
    {
      var ch: int := if pos < |contents| then contents[pos] else EOF;
      if pos == |contents| {
        good := false;
      }
      if ch == Linebreak {
        ReadUnsigned(contents, pos, lines, prepad, postpad, vocabSize);
        lines := PushBack(lines, postpad);
        lines := lines + [[0, 0]];
        lines := PushBack(lines, prepad);
        pos := pos + 1;
        continue;
      }
      if ch == EOF {
        break;
      }
      ReadUnsigned(contents, pos, lines, prepad, postpad, vocabSize);
      lines := PushBack(lines, Token(ch, vocabSize));
      pos := pos + 1;
    }
    StoppedIntended(contents, isOpen, pos, lines, prepad, postpad, vocabSize);
  }

  /** When the `int` loop stops it has read the whole file, or nothing when
      the file is not open. */
  lemma StoppedIntended(contents: seq<Byte>, isOpen: bool, pos: nat, lines: seq<seq<int>>, prepad: int, postpad: int, vocabSize: int)
    requires pos <= |contents| && (isOpen ==> pos == |contents|) && (!isOpen ==> pos == 0)
    requires lines == Reading(Unsigned(contents[..pos]), prepad, postpad, vocabSize)
    ensures lines == SequencesIntended(contents, isOpen, prepad, postpad, vocabSize)
    ensures |lines| == (if isOpen then multiset(contents)[Linebreak] else 0) + 1
  {
    ReadingIsFramed(Unsigned(contents[..pos]), prepad, postpad, vocabSize);
    if isOpen {
      assert contents[..pos] == contents;
      LineCount(Unsigned(contents));
      assert Unsigned(contents) == contents;
    } else {
      assert Unsigned(contents[..pos]) == [];
      LineCount([]);
    }
  }
}

=== FILE: memory_bank.dfy ===
/** The free-list cache behind every host and device allocation: released
    blocks are kept per allocation size, on a stack, and handed out again
    before anything new is allocated.  A pointer `R*` is an `array<int>`:
    a reused block is the very array that was deposited, stale contents
    included, and a new block is a freshly allocated array. */
module MemoryBank {

  /** One device's vault: allocation size -> released blocks, most recent last. */
  type Vault = map<nat, seq<array<int>>>

  /** The stack kept for `amount`; a size never deposited has an empty one. */
  function Bucket(v: Vault, amount: nat): seq<array<int>>
  {
    if amount in v then v[amount] else []
  }

  /** `v[amount].emplace_back(p)`: the entry is created when missing. */
  function Deposited(v: Vault, amount: nat, p: array<int>): Vault
  {
    v[amount := Bucket(v, amount) + [p]]
  }

  /** Result of looking for a reusable block. */
  datatype Withdrawal = Reused(block: array<int>, rest: Vault) | Miss

  /** The cache lookup of `allocate_*`: the top of a non-empty stack, popped. */
  function Withdrawn(v: Vault, amount: nat): Withdrawal
  {
    if amount in v && |v[amount]| > 0 then
      Reused(v[amount][|v[amount]| - 1], v[amount := v[amount][..|v[amount]| - 1]])
    else
      Miss
  }

  /** Every block filed under a size holds that many elements. */
  ghost predicate Sized(v: Vault)
  {
    forall k, i :: k in v && 0 <= i < |v[k]| ==> v[k][i].Length == k
  }

  /** No block sits in a vault twice. */
  ghost predicate Distinct(v: Vault)
  {
    forall k, i, k', i' :: k in v && k' in v && 0 <= i < |v[k]| && 0 <= i' < |v[k']| && (k, i) != (k', i')
      ==> v[k][i] != v[k'][i']
  }

  ghost function Blocks(v: Vault): set<array<int>>
  {
    set k, i | k in v && 0 <= i < |v[k]| :: v[k][i]
  }

  /** Depositing only grows the bucket of its own size. */
  lemma DepositedBuckets(v: Vault, amount: nat, p: array<int>, k: nat)
    ensures Bucket(Deposited(v, amount, p), k) == if k == amount then Bucket(v, k) + [p] else Bucket(v, k)
  {
  }

  /** A withdrawal hands out the last-deposited block of the requested size and
      pops exactly that block; every other bucket is left as it was. */
  lemma WithdrawnIsLifo(v: Vault, amount: nat, k: nat)
    requires |Bucket(v, amount)| > 0
    ensures Withdrawn(v, amount).Reused?
    ensures Withdrawn(v, amount).block == Bucket(v, amount)[|Bucket(v, amount)| - 1]
    ensures Bucket(Withdrawn(v, amount).rest, k) ==
              if k == amount then Bucket(v, amount)[..|Bucket(v, amount)| - 1] else Bucket(v, k)
  {
  }

  /** A miss happens exactly when the bucket for `amount` is missing or empty. */
  lemma WithdrawnMiss(v: Vault, amount: nat)
    ensures Withdrawn(v, amount).Miss? <==> |Bucket(v, amount)| == 0
  {
  }

  /** Round trip: a deposit followed by a withdrawal of the same size returns
      the deposited block and restores every bucket. */
  lemma {:induction false} DepositThenWithdraw(v: Vault, amount: nat, p: array<int>, k: nat)
    ensures Withdrawn(Deposited(v, amount, p), amount).Reused?
    ensures Withdrawn(Deposited(v, amount, p), amount).block == p
    ensures Bucket(Withdrawn(Deposited(v, amount, p), amount).rest, k) == Bucket(v, k)
  {
    var b := Bucket(v, amount);
    var d := Deposited(v, amount, p);
    assert d[amount] == b + [p];
    assert (b + [p])[..|b|] == b;
    var rest := d[amount := b];
    assert Withdrawn(d, amount) == Reused(p, rest);
    if k != amount {
      assert Bucket(rest, k) == Bucket(d, k) == Bucket(v, k);
    }
  }

  /** LIFO: two deposits of one size come back in the reverse order. */
  lemma {:induction false} LastInFirstOut(v: Vault, amount: nat, p: array<int>, q: array<int>)
    ensures var w := Withdrawn(Deposited(Deposited(v, amount, p), amount, q), amount);
            w.Reused? && w.block == q &&
            Withdrawn(w.rest, amount).Reused? && Withdrawn(w.rest, amount).block == p
  {
    var b := Bucket(v, amount);
    var d := Deposited(Deposited(v, amount, p), amount, q);
    assert d[amount] == b + [p] + [q];
    assert (b + [p] + [q])[..|b| + 1] == b + [p];
  }

  lemma DepositedKeepsInvariants(v: Vault, amount: nat, p: array<int>)
    requires Sized(v) && Distinct(v) && p.Length == amount && p !in Blocks(v)
    ensures Sized(Deposited(v, amount, p)) && Distinct(Deposited(v, amount, p))
    ensures Blocks(Deposited(v, amount, p)) == Blocks(v) + {p}
  {
    var d := Deposited(v, amount, p);
    var b := Bucket(v, amount);
    assert d[amount] == b + [p];
    forall x | x in Blocks(d) ensures x in Blocks(v) + {p} {
      var k, i :| k in d && 0 <= i < |d[k]| && d[k][i] == x;
      if k != amount { assert x == v[k][i]; }
      else if i < |b| { assert x == v[k][i]; }
    }
    forall x | x in Blocks(v) + {p} ensures x in Blocks(d) {
      if x == p {
        assert d[amount][|b|] == p;
      } else {
        var k, i :| k in v && 0 <= i < |v[k]| && v[k][i] == x;
        assert d[k][i] == x;
      }
    }
  }

  lemma WithdrawnKeepsInvariants(v: Vault, amount: nat)
    requires Sized(v) && Distinct(v) && Withdrawn(v, amount).Reused?
    ensures var w := Withdrawn(v, amount);
            Sized(w.rest) && Distinct(w.rest) && w.block.Length == amount &&
            w.block in Blocks(v) && Blocks(w.rest) == Blocks(v) - {w.block}
  {
    var w := Withdrawn(v, amount);
    var b := v[amount];
    var n := |b| - 1;
    assert w.block == b[n];
    forall x | x in Blocks(w.rest) ensures x in Blocks(v) - {w.block} {
      var k, i :| k in w.rest && 0 <= i < |w.rest[k]| && w.rest[k][i] == x;
      assert x == v[k][i];
      assert (k, i) != (amount, n);
    }
    forall x | x in Blocks(v) - {w.block} ensures x in Blocks(w.rest) {
      var k, i :| k in v && 0 <= i < |v[k]| && v[k][i] == x;
      assert (k, i) != (amount, n);
      assert w.rest[k][i] == x;
    }
  }

  /** `memory_bank<R>`: the host vault and the device vault with their
      allocation counters.  The static members become the fields of one
      object, passed to everything that allocates or releases memory. */
  class Bank {
    var cpuBank: Vault
    var numCpuAllocations: nat
    var totalCpuMemory: nat
    var gpuBank: Vault
    var numGpuAllocations: nat
    var totalGpuMemory: nat

    ghost predicate Valid()
      reads this
    {
      Sized(cpuBank) && Distinct(cpuBank) && Sized(gpuBank) && Distinct(gpuBank) &&
      Blocks(cpuBank) !! Blocks(gpuBank)
    }

    /** Every block the bank currently holds, on either device. */
    ghost function Held(): set<array<int>>
      reads this
    {
      Blocks(cpuBank) + Blocks(gpuBank)
    }

    /** The static initial state: empty vaults, counters at 0. */
    constructor ()
      ensures Valid()
      ensures cpuBank == map[] && gpuBank == map[]
      ensures numCpuAllocations == 0 && totalCpuMemory == 0
      ensures numGpuAllocations == 0 && totalGpuMemory == 0
    {
      cpuBank, gpuBank := map[], map[];
      numCpuAllocations, totalCpuMemory := 0, 0;
      numGpuAllocations, totalGpuMemory := 0, 0;
    }

    /** `deposit_cpu`: the block goes on top of the stack for `amount`;
        `innerDimension` plays no part. */
    method DepositCpu(amount: nat, innerDimension: int, ptr: array<int>)
      requires Valid() && ptr.Length == amount && ptr !in Held()
      modifies this
      ensures Valid() && Held() == old(Held()) + {ptr}
      ensures cpuBank == Deposited(old(cpuBank), amount, ptr)
      ensures gpuBank == old(gpuBank)
      ensures numCpuAllocations == old(numCpuAllocations) && totalCpuMemory == old(totalCpuMemory)
      ensures numGpuAllocations == old(numGpuAllocations) && totalGpuMemory == old(totalGpuMemory)
    {
      DepositedKeepsInvariants(cpuBank, amount, ptr);
      var box := if amount in cpuBank then cpuBank[amount] else [];
      cpuBank := cpuBank[amount := box + [ptr]];
    }

    /** `allocate_cpu`: reuse the top block for `amount` when there is one
        (counters untouched); otherwise count a new allocation of `amount`
        elements and return a new block. */
    method AllocateCpu(amount: nat, innerDimension: int) returns (ptr: array<int>)
      requires Valid()
      modifies this
      ensures Valid() && ptr.Length == amount && ptr !in Held()
      ensures gpuBank == old(gpuBank)
      ensures numGpuAllocations == old(numGpuAllocations) && totalGpuMemory == old(totalGpuMemory)
      ensures match Withdrawn(old(cpuBank), amount)
              case Reused(block, rest) =>
                ptr == block && cpuBank == rest && Held() == old(Held()) - {ptr} &&
                numCpuAllocations == old(numCpuAllocations) && totalCpuMemory == old(totalCpuMemory)
              case Miss =>
                fresh(ptr) && cpuBank == old(cpuBank) &&
                numCpuAllocations == old(numCpuAllocations) + 1 &&
                totalCpuMemory == old(totalCpuMemory) + amount
    {
      if amount in cpuBank {
        var box := cpuBank[amount];
        if |box| > 0 {
          WithdrawnKeepsInvariants(cpuBank, amount);
          ptr := box[|box| - 1];
          cpuBank := cpuBank[amount := box[..|box| - 1]];
          return;
        }
      }
      numCpuAllocations := numCpuAllocations + 1;
      totalCpuMemory := totalCpuMemory + amount;
      ptr := new int[amount];
    }

    /** `deposit_gpu`: the device twin of `DepositCpu`, on the device vault. */
    method DepositGpu(amount: nat, innerDimension: int, ptr: array<int>)
      requires Valid() && ptr.Length == amount && ptr !in Held()
      modifies this
      ensures Valid() && Held() == old(Held()) + {ptr}
      ensures gpuBank == Deposited(old(gpuBank), amount, ptr)
      ensures cpuBank == old(cpuBank)
      ensures numCpuAllocations == old(numCpuAllocations) && totalCpuMemory == old(totalCpuMemory)
      ensures numGpuAllocations == old(numGpuAllocations) && totalGpuMemory == old(totalGpuMemory)
    {
      DepositedKeepsInvariants(gpuBank, amount, ptr);
      var box := if amount in gpuBank then gpuBank[amount] else [];
      gpuBank := gpuBank[amount := box + [ptr]];
    }

    /** `allocate_gpu`: the device twin of `AllocateCpu`. */
    method AllocateGpu(amount: nat, innerDimension: int) returns (ptr: array<int>)
      requires Valid()
      modifies this
      ensures Valid() && ptr.Length == amount && ptr !in Held()
      ensures cpuBank == old(cpuBank)
      ensures numCpuAllocations == old(numCpuAllocations) && totalCpuMemory == old(totalCpuMemory)
      ensures match Withdrawn(old(gpuBank), amount)
              case Reused(block, rest) =>
                ptr == block && gpuBank == rest && Held() == old(Held()) - {ptr} &&
                numGpuAllocations == old(numGpuAllocations) && totalGpuMemory == old(totalGpuMemory)
              case Miss =>
                fresh(ptr) && gpuBank == old(gpuBank) &&
                numGpuAllocations == old(numGpuAllocations) + 1 &&
                totalGpuMemory == old(totalGpuMemory) + amount
    {
      if amount in gpuBank {
        var box := gpuBank[amount];
        if |box| > 0 {
          WithdrawnKeepsInvariants(gpuBank, amount);
          ptr := box[|box| - 1];
          gpuBank := gpuBank[amount := box[..|box| - 1]];
          return;
        }
      }
      numGpuAllocations := numGpuAllocations + 1;
      totalGpuMemory := totalGpuMemory + amount;
      ptr := new int[amount];
    }
  }
}

=== FILE: mshadow_wrapper.dfy ===
/** The wrapper that lets an mshadow expression read a strided Dali array:
    the construction checks, the plan that copies the array's shape and
    strides, and the remapping of a (row, column) pair of the dense 2-D view
    onto the strided block. */
module MshadowWrapper {

  /** Every dimension among the first `n` is positive. */
  predicate Positive(shape: seq<nat>, n: nat)
    requires n <= |shape|
  {
    forall d :: 0 <= d < n ==> shape[d] > 0
  }

  /** The offset the first `k` dimensions contribute for row `i`: the
      digits of `i` in the mixed radix `shape[0..k]`, innermost dimension
      first, each weighted by its stride. */
  function Offset(i: nat, shape: seq<nat>, strides: seq<nat>, k: nat): nat
    requires k <= |shape| && k <= |strides| && Positive(shape, k)
    decreases k
  {
    if k == 0 then 0
    else Weighted(i % shape[k - 1], strides[k - 1]) + Offset(i / shape[k - 1], shape, strides, k - 1)
  }

  /** One digit times its stride. */
  function Weighted(digit: nat, stride: nat): nat
  {
    digit * stride
  }

  /** The remapped (row, column) of `(i, j)` for an `n`-dimensional array:
      the offset of the leading dimensions is split by the last dimension,
      and the column moves by the last stride. */
  function Remap(i: nat, j: nat, shape: seq<nat>, strides: seq<nat>, n: nat): (r: (nat, nat))
    requires 1 <= n <= |shape| && n <= |strides| && Positive(shape, n)
    ensures r.0 * shape[n - 1] + r.1 == Offset(i, shape, strides, n - 1) + j * strides[n - 1]
  {
    var off := Offset(i, shape, strides, n - 1);
    (off / shape[n - 1], off % shape[n - 1] + j * strides[n - 1])
  }

  /** The product of a shape (1 for no dimension). */
  function Product(s: seq<nat>): (p: nat)
    ensures (forall d :: 0 <= d < |s| ==> s[d] > 0) ==> p > 0
  {
    if |s| == 0 then 1 else Product(s[..|s| - 1]) * s[|s| - 1]
  }

  /** The strides of a dense row-major array: each is the product of the
      dimensions after it. */
  predicate RowMajor(shape: seq<nat>, strides: seq<nat>, n: nat)
    requires n <= |shape| && n <= |strides|
  {
    forall d :: 0 <= d < n ==> strides[d] == Product(shape[d + 1..n])
  }

  /** Division with remainder is unique. */
  lemma DivModUnique(x: nat, d: nat, q: nat, r: nat)
    requires d > 0 && x == d * q + r && r < d
    ensures x / d == q && x % d == r
  {
    var q', r' := x / d, x % d;
    assert x == d * q' + r' && 0 <= r' < d;
    assert d * (q - q') == r' - r;
    if q - q' >= 1 {
      MulAtLeast(q - q', d);
    } else if q' - q >= 1 {
      MulAtLeast(q' - q, d);
    }
  }

  lemma MulAtLeast(a: int, d: nat)
    requires a >= 1
    ensures d * a >= d
  {
  }

  /** The mixed-radix step: the remainder by `a * b` is the remainder by
      `b` plus `b` times the next digit. */
  lemma ModSplit(i: nat, a: nat, b: nat)
    requires a > 0 && b > 0
    ensures i % (a * b) == i % b + b * ((i / b) % a)
  {
    var q, r := i / b, i % b;
    var q2, r2 := q / a, q % a;
    Expand(i, a, b, q, r, q2, r2);
    DigitsBelow(a, b, r2, r);
    DivModUnique(i, a * b, q2, b * r2 + r);
  }

  /** Two division steps recombine into one by `a * b`. */
  lemma Expand(i: nat, a: nat, b: nat, q: nat, r: nat, q2: nat, r2: nat)
    requires i == b * q + r && q == a * q2 + r2
    ensures i == (a * b) * q2 + (b * r2 + r)
  {
    assert b * q == b * (a * q2) + b * r2;
  }

  /** The two low digits stay below `a * b`. */
  lemma DigitsBelow(a: nat, b: nat, r2: nat, r: nat)
    requires r2 < a && r < b
    ensures b * r2 + r < a * b
  {
    assert b * r2 <= b * (a - 1);
  }

  lemma Regroup(m: nat, p: nat, b: nat)
    ensures m * (p * b) == (m * b) * p
  {
  }

  lemma Factor(digit: nat, m: nat, b: nat, x: nat)
    ensures digit * m + (m * b) * x == m * (digit + b * x)
  {
  }

  /** The product of a prefix grows by the next dimension. */
  lemma ProductSnoc(s: seq<nat>, lo: nat, hi: nat)
    requires lo < hi <= |s|
    ensures Product(s[lo..hi]) == Product(s[lo..hi - 1]) * s[hi - 1]
  {
    assert s[lo..hi][..hi - lo - 1] == s[lo..hi - 1];
  }

  /** Strides that are `m` times dense row-major ones turn the digits back
      into the row number itself, scaled by `m`. */
  lemma {:induction false} OffsetOfDense(i: nat, shape: seq<nat>, strides: seq<nat>, k: nat, m: nat)
    requires k <= |shape| && k <= |strides| && Positive(shape, k)
    requires forall d :: 0 <= d < k ==> strides[d] == m * Product(shape[d + 1..k])
    ensures Offset(i, shape, strides, k) == m * (i % Product(shape[..k]))
    decreases k
  {
    if k == 0 {
      assert Product(shape[..0]) == 1;
    } else {
      var b := shape[k - 1];
      assert Product(shape[k..k]) == 1;
      forall d | 0 <= d < k - 1
        ensures strides[d] == (m * b) * Product(shape[d + 1..k - 1])
      {
        ProductSnoc(shape, d + 1, k);
        Regroup(m, Product(shape[d + 1..k - 1]), b);
      }
      OffsetOfDense(i / b, shape, strides, k - 1, m * b);
      var a := Product(shape[..k - 1]);
      ProductSnoc(shape, 0, k);
      assert shape[0..k] == shape[..k] && shape[0..k - 1] == shape[..k - 1];
      ModSplit(i, a, b);
      Factor(i % b, m, b, (i / b) % a);
    }
  }

  /** For a dense row-major array the remapping is the identity on every
      row of the 2-D view. */
  lemma DenseRemapIsIdentity(i: nat, j: nat, shape: seq<nat>, strides: seq<nat>, n: nat)
    requires 1 <= n <= |shape| && n <= |strides| && Positive(shape, n)
    requires RowMajor(shape, strides, n) && i < Product(shape[..n - 1])
    ensures Remap(i, j, shape, strides, n) == (i, j)
  {
    var last := shape[n - 1];
    LeadingStridesScaled(shape, strides, n);
    OffsetOfDense(i, shape, strides, n - 1, last);
    DivModUnique(i, Product(shape[..n - 1]), 0, i);
    var off := Offset(i, shape, strides, n - 1);
    assert off == last * i;
    assert strides[n - 1] == 1 by {
      assert Product(shape[n..n]) == 1;
    }
    DivModUnique(off, last, i, 0);
  }

  /** Dense row-major strides of the leading dimensions are the last
      dimension times the strides of the leading dimensions alone. */
  lemma LeadingStridesScaled(shape: seq<nat>, strides: seq<nat>, n: nat)
    requires 1 <= n <= |shape| && n <= |strides| && RowMajor(shape, strides, n)
    ensures forall d :: 0 <= d < n - 1 ==> strides[d] == shape[n - 1] * Product(shape[d + 1..n - 1])
  {
    forall d | 0 <= d < n - 1
      ensures strides[d] == shape[n - 1] * Product(shape[d + 1..n - 1])
    {
      ProductSnoc(shape, d + 1, n);
    }
  }

  /** Why a `DaliWrapperExp` cannot be built. */
  datatype Refusal = LastDimensionNotContiguous | TooManyDimensions

  datatype Built = Wrapper(srcShape: seq<nat>, srcStride: nat, arrayShape: seq<nat>, arrayStrides: seq<nat>)
                 | Refused(why: Refusal)

  /** The `DaliWrapperExp` constructor: the source tensor's row stride must
      be its last dimension, and the array may have at most `maxDim`
      dimensions; the wrapper's shape is the source's. */
  function MakeWrapper(srcShape: seq<nat>, srcStride: nat, arrayShape: seq<nat>, arrayStrides: seq<nat>, maxDim: nat)
    : (r: Built)
    requires |srcShape| >= 1
    ensures r.Wrapper? <==> srcShape[|srcShape| - 1] == srcStride && |arrayShape| <= maxDim
    ensures r.Wrapper? ==> r == Wrapper(srcShape, srcStride, arrayShape, arrayStrides)
    ensures r.Refused? && srcShape[|srcShape| - 1] != srcStride ==> r.why == LastDimensionNotContiguous
    ensures r.Refused? && srcShape[|srcShape| - 1] == srcStride ==> r.why == TooManyDimensions
  {
    if srcShape[|srcShape| - 1] != srcStride then Refused(LastDimensionNotContiguous)
    else if |arrayShape| > maxDim then Refused(TooManyDimensions)
    else Wrapper(srcShape, srcStride, arrayShape, arrayStrides)
  }

  /** The evaluation plan of a wrapper: the array's dimension count, its
      shape and strides copied into fixed-size buffers of `maxDim` entries,
      and the source tensor's row stride. */
  class Plan {
    const srcStride: nat
    const ndim: nat
    const hasStrides: bool
    const shape: array<nat>
    const strides: array<nat>

    ghost predicate Valid()
    {
      ndim <= shape.Length && ndim <= strides.Length
    }

    /** What the strided remapping needs: strides, at least one dimension,
        and no zero dimension to divide by. */
    ghost predicate Strided()
      reads this, shape
      requires Valid()
    {
      hasStrides && ndim >= 1 && Positive(shape[..], ndim)
    }

    /** The constructor copies every dimension, and every stride when the
        array has any. */
    constructor (w: Built, maxDim: nat)
      requires w.Wrapper? && |w.arrayShape| <= maxDim
      requires |w.arrayStrides| != 0 ==> |w.arrayStrides| >= |w.arrayShape|
      ensures Valid() && shape.Length == maxDim && strides.Length == maxDim && fresh(shape) && fresh(strides)
      ensures srcStride == w.srcStride && ndim == |w.arrayShape| && (hasStrides <==> |w.arrayStrides| != 0)
      ensures shape[..ndim] == w.arrayShape
      ensures hasStrides ==> strides[..ndim] == w.arrayStrides[..ndim]
    {
      srcStride := w.srcStride;
      ndim := |w.arrayShape|;
      hasStrides := |w.arrayStrides| != 0;
      shape := new nat[maxDim];
      strides := new nat[maxDim];
      new;
      for i := 0 to ndim
        invariant shape[..i] == w.arrayShape[..i]
        invariant hasStrides ==> strides[..i] == w.arrayStrides[..i]
      {
        shape[i] := w.arrayShape[i];
        if hasStrides {
          strides[i] := w.arrayStrides[i];
        }
      }
      assert w.arrayShape[..ndim] == w.arrayShape;
    }

    /** `map_indices_using_stride`: accumulate the offset of the leading
        dimensions digit by digit from the innermost one, then split it by
        the last dimension. */
    method MapIndicesUsingStride(i: nat, j: nat) returns (newI: nat, newJ: nat)
      requires Valid() && Strided()
      ensures (newI, newJ) == Remap(i, j, shape[..], strides[..], ndim)
    {
      var iDerivedOffset := 0;
      var rest := i;
      var dimIdx := ndim - 2;
      while dimIdx >= 0
        invariant -1 <= dimIdx <= ndim - 2
        invariant iDerivedOffset + Offset(rest, shape[..], strides[..], dimIdx + 1) ==
                  Offset(i, shape[..], strides[..], ndim - 1)
      {
        iDerivedOffset := iDerivedOffset + (rest % shape[dimIdx]) * strides[dimIdx];
        rest := rest / shape[dimIdx];
        dimIdx := dimIdx - 1;
      }
      newI := iDerivedOffset / shape[ndim - 1];
      newJ := iDerivedOffset % shape[ndim - 1] + j * strides[ndim - 1];
    }

    /** The block position that `(i, j)` reaches: the source tensor's own
        position without strides, the remapped one with them. */
    function Position(i: nat, j: nat): nat
      reads this, shape, strides
      requires Valid() && (hasStrides ==> Strided())
    {
      if !hasStrides then i * srcStride + j
      else
        var r := Remap(i, j, shape[..], strides[..], ndim);
        r.0 * srcStride + r.1
    }

    /** `Eval`: read the element at `(i, j)`. */
    method Eval(src: array<int>, i: nat, j: nat) returns (v: int)
      requires Valid() && (hasStrides ==> Strided()) && Position(i, j) < src.Length
      ensures v == src[Position(i, j)]
    {
      if !hasStrides {
        v := src[i * srcStride + j];
      } else {
        var newI, newJ := MapIndicesUsingStride(i, j);
        v := src[newI * srcStride + newJ];
      }
    }

    /** `REval`: the element at `(i, j)` as a place to store into; storing
        `v` changes that one position of the block. */
    method REval(src: array<int>, i: nat, j: nat, v: int)
      requires Valid() && (hasStrides ==> Strided()) && Position(i, j) < src.Length
      modifies src
      ensures src[..] == old(src[..])[Position(i, j) := v]
    {
      if !hasStrides {
        src[i * srcStride + j] := v;
      } else {
        var newI, newJ := MapIndicesUsingStride(i, j);
        src[newI * srcStride + newJ] := v;
      }
    }
  }

  /** With strides and a source whose row stride is the array's last
      dimension, `(i, j)` lands at the leading dimensions' offset plus `j`
      last strides. */
  lemma StridedPosition(p: Plan, i: nat, j: nat)
    requires p.Valid() && p.Strided() && p.srcStride == p.shape[p.ndim - 1]
    ensures p.Position(i, j) == Offset(i, p.shape[..], p.strides[..], p.ndim - 1) + j * p.strides[p.ndim - 1]
  {
  }

  /** With dense row-major strides the plan reads the source's own cell,
      exactly as it does without strides. */
  lemma DenseStridesChangeNothing(p: Plan, i: nat, j: nat)
    requires p.Valid() && p.Strided() && RowMajor(p.shape[..], p.strides[..], p.ndim)
    requires i < Product(p.shape[..p.ndim - 1])
    ensures p.Position(i, j) == i * p.srcStride + j
  {
    DenseRemapIsIdentity(i, j, p.shape[..], p.strides[..], p.ndim);
  }
}

=== FILE: synchronized_memory.dfy ===
/** Host/device memory that keeps one logical buffer in up to two physical
    copies and tracks which copy is up to date.  The compile-time switch
    DALI_USE_CUDA is the immutable `cuda` flag: without it the device
    fields stay at their initial values and the device operations do not
    exist (they require `cuda`). */
module SynchronizedMemory {
  import opened MemoryBank

  datatype Device = CPU | GPU

  /** The part of one memory that the device choice looks at. */
  datatype Placement = Placement(preferred: Device, cpuFresh: bool, gpuFresh: bool)

  predicate AllPrefer(sts: seq<Placement>, d: Device)
  {
    forall i :: 0 <= i < |sts| ==> sts[i].preferred == d
  }

  /** Where an operation over these memories runs: never on the device
      without CUDA; a lone memory goes to the device when it prefers it and
      its device copy is fresh or neither copy is; several memories follow a
      unanimous preference and otherwise the tie-breaker. */
  predicate GpuChosen(cuda: bool, sts: seq<Placement>, tieBreaker: Device)
  {
    if !cuda then false
    else if |sts| == 1 then
      sts[0].preferred == GPU && (sts[0].gpuFresh || (!sts[0].cpuFresh && !sts[0].gpuFresh))
    else if AllPrefer(sts, CPU) then false
    else if AllPrefer(sts, GPU) then true
    else tieBreaker == GPU
  }

  /** `should_compute_on_gpu`: folds the two "everybody" flags over the inputs. */
  method ShouldComputeOnGpu(cuda: bool, sts: seq<Placement>, tieBreaker: Device) returns (r: bool)
    ensures r == GpuChosen(cuda, sts, tieBreaker)
  {
    if !cuda {
      return false;
    }
    if |sts| == 1 {
      var mover := sts[0];
      return mover.preferred == GPU && (mover.gpuFresh || (!mover.cpuFresh && !mover.gpuFresh));
    }
    var everybodyCpu, everybodyGpu := true, true;
    for k := 0 to |sts|
      invariant everybodyGpu == AllPrefer(sts[..k], GPU)
      invariant everybodyCpu == AllPrefer(sts[..k], CPU)
    {
      everybodyGpu := everybodyGpu && sts[k].preferred == GPU;
      everybodyCpu := everybodyCpu && sts[k].preferred == CPU;
    }
    assert sts[..|sts|] == sts;
    if everybodyCpu {
      r := false;
    } else if everybodyGpu {
      r := true;
    } else {
      r := tieBreaker == GPU;
    }
  }

  /** With several memories (or none) the device is chosen exactly when some
      memory prefers it and either all do or the tie-breaker is the device. */
  lemma SeveralMemoriesChoice(sts: seq<Placement>, tieBreaker: Device)
    requires |sts| != 1
    ensures GpuChosen(true, sts, tieBreaker) <==>
              (exists i :: 0 <= i < |sts| && sts[i].preferred == GPU) &&
              (AllPrefer(sts, GPU) || tieBreaker == GPU)
  {
    if GpuChosen(true, sts, tieBreaker) {
      assert !AllPrefer(sts, CPU);
      var i :| 0 <= i < |sts| && sts[i].preferred != CPU;
      assert sts[i].preferred == GPU;
    }
  }

  /** A lone memory whose host copy is fresh and device copy stale stays on the host. */
  lemma LoneFreshHostStaysOnHost(st: Placement, tieBreaker: Device)
    requires st.cpuFresh && !st.gpuFresh
    ensures !GpuChosen(true, [st], tieBreaker)
  {
  }

  function Zeros(n: nat): (z: seq<int>)
    ensures |z| == n && forall i :: 0 <= i < n ==> z[i] == 0
  {
    seq(n, _ => 0)
  }

  /** In a CUDA build, a memory whose only block is on the device keeps its
      stale device data through `LazyClear`, and that data is what the next
      read sees; `LazyClearIntended` zeroes it. */
  method LazyClearKeepsDeviceData() returns (m: SyncMemory)
    ensures m.Valid() && m.totalMemory == 1 && m.gpuFresh && m.gpuPtr != null && m.gpuPtr[0] == 7
    ensures !m.ReadsAsZero()
  {
    var bank := new Bank();
    m := new SyncMemory(1, 1, GPU, false, true);
    m.Clear(bank);
    var g := m.MutableGpuData(bank);
    g[0] := 7;
    m.LazyClear(bank);
  }

  /** `dummy_cpu() = 0` and `dummy_gpu() = 0`: fill a whole block with zeros. */
  method FillZero(p: array<int>)
    modifies p
    ensures p[..] == Zeros(p.Length)
  {
    forall i | 0 <= i < p.Length {
      p[i] := 0;
    }
  }

  /** `Copy(dst, src)` and `copy_data_from`: overwrite a whole block. */
  method Store(dst: array<int>, data: seq<int>)
    requires |data| == dst.Length
    modifies dst
    ensures dst[..] == data
  {
    forall i | 0 <= i < dst.Length {
      dst[i] := data[i];
    }
  }

  /** `SynchronizedMemory<R>`; `cpuPtr`/`gpuPtr` are null when not allocated. */
  class SyncMemory {
    const cuda: bool
    const totalMemory: nat
    const innerDimension: nat
    const preferred: Device
    var clearOnAllocation: bool
    var cpuFresh: bool
    var allocatedCpu: bool
    var cpuPtr: array?<int>
    var gpuFresh: bool
    var allocatedGpu: bool
    var gpuPtr: array?<int>

    ghost function Buffers(): set<object>
      reads this
    {
      (if cpuPtr != null then {cpuPtr} else {}) + (if gpuPtr != null then {gpuPtr} else {})
    }

    ghost predicate Valid()
      reads this, Buffers()
    {
      && innerDimension > 0 && totalMemory % innerDimension == 0
      && (allocatedCpu <==> cpuPtr != null) && (cpuPtr != null ==> cpuPtr.Length == totalMemory)
      && (allocatedGpu <==> gpuPtr != null) && (gpuPtr != null ==> gpuPtr.Length == totalMemory)
      && (cpuFresh ==> allocatedCpu) && (gpuFresh ==> allocatedGpu)
      && (!cuda ==> !allocatedGpu && !gpuFresh)
      && (cpuPtr != null && gpuPtr != null ==> cpuPtr != gpuPtr)
      // two fresh copies hold the same data
      && (cpuFresh && gpuFresh ==> cpuPtr[..] == gpuPtr[..])
    }

    /** The blocks this memory holds are not also sitting in the bank. */
    ghost predicate OutsideBank(bank: Bank)
      reads this, bank
    {
      (cpuPtr != null ==> cpuPtr !in bank.Held()) && (gpuPtr != null ==> gpuPtr !in bank.Held())
    }

    /** Every block held now was held before, came from the bank, or is new. */
    twostate predicate BlocksFrom(bank: Bank)
      reads this, bank
    {
      && (cpuPtr != null ==> cpuPtr == old(cpuPtr) || fresh(cpuPtr) || cpuPtr in old(bank.Held()))
      && (gpuPtr != null ==> gpuPtr == old(gpuPtr) || fresh(gpuPtr) || gpuPtr in old(bank.Held()))
    }

    predicate Initialized()
      reads this
    {
      cpuFresh || gpuFresh
    }

    /** The logical contents: the data of a fresh copy. */
    ghost function Contents(): seq<int>
      reads this, Buffers()
      requires Valid()
    {
      if cpuFresh then cpuPtr[..] else if gpuFresh then gpuPtr[..] else []
    }

    /** Whatever copy is read next holds zeros: the fresh data is all zero, or
        nothing is allocated yet and the first allocation will be cleared. */
    ghost predicate ReadsAsZero()
      reads this, Buffers()
      requires Valid()
    {
      if Initialized() then Contents() == Zeros(totalMemory)
      else clearOnAllocation && !allocatedCpu && !allocatedGpu
    }

    function Place(): Placement
      reads this
    {
      Placement(preferred, cpuFresh, gpuFresh)
    }

    /** The constructor: the size must split into rows of `innerDimension`;
        nothing is allocated and no copy is fresh. */
    constructor (totalMemory: nat, innerDimension: nat, preferred: Device, clearOnAllocation: bool, cuda: bool)
      requires innerDimension > 0 && totalMemory % innerDimension == 0
      ensures Valid() && !Initialized()
      ensures this.totalMemory == totalMemory && this.innerDimension == innerDimension
      ensures this.preferred == preferred && this.clearOnAllocation == clearOnAllocation && this.cuda == cuda
      ensures !allocatedCpu && !allocatedGpu && cpuPtr == null && gpuPtr == null
    {
      this.cuda := cuda;
      this.totalMemory := totalMemory;
      this.innerDimension := innerDimension;
      this.preferred := preferred;
      this.clearOnAllocation := clearOnAllocation;
      cpuFresh, allocatedCpu, cpuPtr := false, false, null;
      gpuFresh, allocatedGpu, gpuPtr := false, false, null;
    }

    /** The copy constructor: same size, preference and clearing flag; the
        source's fresh data (host copy first) is copied into a block of the
        new memory's own, on its preferred device. */
    constructor Copy(other: SyncMemory, bank: Bank)
      requires other.Valid() && bank.Valid() && other.OutsideBank(bank)
      modifies bank, bank.Held()
      ensures Valid() && bank.Valid() && OutsideBank(bank) && other.OutsideBank(bank)
      ensures totalMemory == other.totalMemory && innerDimension == other.innerDimension
      ensures preferred == other.preferred && clearOnAllocation == other.clearOnAllocation && cuda == other.cuda
      ensures Buffers() !! other.Buffers()
      ensures Initialized() <==> other.Initialized() && (preferred == CPU || cuda)
      ensures Initialized() ==> Contents() == other.Contents()
    {
      this.cuda := other.cuda;
      this.totalMemory := other.totalMemory;
      this.innerDimension := other.innerDimension;
      this.preferred := other.preferred;
      this.clearOnAllocation := other.clearOnAllocation;
      cpuFresh, allocatedCpu, cpuPtr := false, false, null;
      gpuFresh, allocatedGpu, gpuPtr := false, false, null;
      new;
      assert Valid() && OutsideBank(bank) && !Initialized() && Buffers() == {};
      if other.cpuFresh {
        CopyDataFrom(other.cpuPtr[..], bank);
      } else if cuda && other.gpuFresh {
        CopyDataFrom(other.gpuPtr[..], bank);
      }
    }

    /** `allocate_cpu`: take a block from the bank the first time only. */
    method AllocateCpu(bank: Bank) returns (justAllocated: bool)
      requires Valid() && bank.Valid() && OutsideBank(bank)
      modifies this, bank
      ensures Valid() && bank.Valid() && OutsideBank(bank)
      ensures justAllocated == !old(allocatedCpu) && allocatedCpu
      ensures old(allocatedCpu) ==> cpuPtr == old(cpuPtr) && unchanged(bank)
      ensures !old(allocatedCpu) ==>
                (fresh(cpuPtr) || cpuPtr in old(bank.Held())) && bank.Held() == old(bank.Held()) - {cpuPtr}
      ensures cpuFresh == old(cpuFresh) && clearOnAllocation == old(clearOnAllocation)
      ensures gpuFresh == old(gpuFresh) && allocatedGpu == old(allocatedGpu) && gpuPtr == old(gpuPtr)
    {
      if allocatedCpu {
        return false;
      }
      cpuPtr := bank.AllocateCpu(totalMemory, innerDimension);
      allocatedCpu := true;
      return true;
    }

    /** `allocate_gpu`: the device twin of `AllocateCpu`. */
    method AllocateGpu(bank: Bank) returns (justAllocated: bool)
      requires cuda && Valid() && bank.Valid() && OutsideBank(bank)
      modifies this, bank
      ensures Valid() && bank.Valid() && OutsideBank(bank)
      ensures justAllocated == !old(allocatedGpu) && allocatedGpu
      ensures old(allocatedGpu) ==> gpuPtr == old(gpuPtr) && unchanged(bank)
      ensures !old(allocatedGpu) ==>
                (fresh(gpuPtr) || gpuPtr in old(bank.Held())) && bank.Held() == old(bank.Held()) - {gpuPtr}
      ensures gpuFresh == old(gpuFresh) && clearOnAllocation == old(clearOnAllocation)
      ensures cpuFresh == old(cpuFresh) && allocatedCpu == old(allocatedCpu) && cpuPtr == old(cpuPtr)
    {
      if allocatedGpu {
        return false;
      }
      gpuPtr := bank.AllocateGpu(totalMemory, innerDimension);
      allocatedGpu := true;
      return true;
    }

    /** `to_cpu`: make the host copy fresh.  It copies a fresh device copy,
        clears a block it has just allocated when asked to, and otherwise
        leaves a stale block as it is. */
    method ToCpu(bank: Bank)
      requires Valid() && bank.Valid() && OutsideBank(bank)
      modifies this, Buffers(), bank, bank.Held()
      ensures Valid() && bank.Valid() && OutsideBank(bank) && bank.Held() <= old(bank.Held()) && BlocksFrom(bank)
      ensures cpuFresh && allocatedCpu
      ensures gpuFresh == old(gpuFresh) && clearOnAllocation == old(clearOnAllocation)
      ensures allocatedGpu == old(allocatedGpu) && gpuPtr == old(gpuPtr)
      ensures gpuPtr != null ==> gpuPtr[..] == old(gpuPtr[..])
      ensures old(allocatedCpu) ==> cpuPtr == old(cpuPtr) && unchanged(bank)
      ensures old(cpuFresh) ==> cpuPtr[..] == old(cpuPtr[..])
      ensures old(Initialized()) ==> cpuPtr[..] == old(Contents())
      ensures !old(Initialized()) && old(allocatedCpu) ==> cpuPtr[..] == old(cpuPtr[..])
      ensures !old(Initialized()) && !old(allocatedCpu) && clearOnAllocation ==> cpuPtr[..] == Zeros(totalMemory)
    {
      if !cpuFresh {
        var justAllocated := AllocateCpu(bank);
        if cuda && gpuFresh {
          Store(cpuPtr, gpuPtr[..]);
        } else if justAllocated && clearOnAllocation {
          // without CUDA only this branch exists: `gpuFresh` is false there
          FillZero(cpuPtr);
        }
        cpuFresh := true;
      }
    }

    /** `to_gpu`: the device twin of `ToCpu`. */
    method ToGpu(bank: Bank)
      requires cuda && Valid() && bank.Valid() && OutsideBank(bank)
      modifies this, Buffers(), bank, bank.Held()
      ensures Valid() && bank.Valid() && OutsideBank(bank) && bank.Held() <= old(bank.Held()) && BlocksFrom(bank)
      ensures gpuFresh && allocatedGpu
      ensures cpuFresh == old(cpuFresh) && clearOnAllocation == old(clearOnAllocation)
      ensures allocatedCpu == old(allocatedCpu) && cpuPtr == old(cpuPtr)
      ensures cpuPtr != null ==> cpuPtr[..] == old(cpuPtr[..])
      ensures old(allocatedGpu) ==> gpuPtr == old(gpuPtr) && unchanged(bank)
      ensures old(gpuFresh) ==> gpuPtr[..] == old(gpuPtr[..])
      ensures old(Initialized()) ==> gpuPtr[..] == old(Contents())
      ensures !old(Initialized()) && old(allocatedGpu) ==> gpuPtr[..] == old(gpuPtr[..])
      ensures !old(Initialized()) && !old(allocatedGpu) && clearOnAllocation ==> gpuPtr[..] == Zeros(totalMemory)
    {
      if !gpuFresh {
        var justAllocated := AllocateGpu(bank);
        if cpuFresh {
          Store(gpuPtr, cpuPtr[..]);
        } else if justAllocated && clearOnAllocation {
          FillZero(gpuPtr);
        }
        gpuFresh := true;
      }
    }

    /** `cpu_data`: the host block, made fresh; the logical contents survive. */
    method CpuData(bank: Bank) returns (p: array<int>)
      requires Valid() && bank.Valid() && OutsideBank(bank)
      modifies this, Buffers(), bank, bank.Held()
      ensures Valid() && bank.Valid() && OutsideBank(bank) && bank.Held() <= old(bank.Held()) && BlocksFrom(bank)
      ensures p == cpuPtr && cpuFresh && gpuFresh == old(gpuFresh)
      ensures allocatedGpu == old(allocatedGpu) && gpuPtr == old(gpuPtr)
      ensures old(allocatedCpu) ==> p == old(cpuPtr) && unchanged(bank)
      ensures old(Initialized()) ==> Contents() == old(Contents())
      ensures !old(Initialized()) && !old(allocatedCpu) && clearOnAllocation ==> Contents() == Zeros(totalMemory)
    {
      ToCpu(bank);
      p := cpuPtr;
    }

    /** `mutable_cpu_data`: as `CpuData`, and the device copy becomes stale
        because the caller is about to write the host block. */
    method MutableCpuData(bank: Bank) returns (p: array<int>)
      requires Valid() && bank.Valid() && OutsideBank(bank)
      modifies this, Buffers(), bank, bank.Held()
      ensures Valid() && bank.Valid() && OutsideBank(bank) && bank.Held() <= old(bank.Held()) && BlocksFrom(bank)
      ensures p == cpuPtr && cpuFresh && !gpuFresh
      ensures allocatedGpu == old(allocatedGpu) && gpuPtr == old(gpuPtr)
      ensures old(allocatedCpu) ==> p == old(cpuPtr) && unchanged(bank)
      ensures old(Initialized()) ==> Contents() == old(Contents())
      ensures !old(Initialized()) && !old(allocatedCpu) && clearOnAllocation ==> Contents() == Zeros(totalMemory)
    {
      ToCpu(bank);
      if cuda {
        gpuFresh := false;
      }
      p := cpuPtr;
    }

    /** `gpu_data`: the device twin of `CpuData`. */
    method GpuData(bank: Bank) returns (g: array<int>)
      requires cuda && Valid() && bank.Valid() && OutsideBank(bank)
      modifies this, Buffers(), bank, bank.Held()
      ensures Valid() && bank.Valid() && OutsideBank(bank) && bank.Held() <= old(bank.Held()) && BlocksFrom(bank)
      ensures g == gpuPtr && gpuFresh && cpuFresh == old(cpuFresh)
      ensures allocatedCpu == old(allocatedCpu) && cpuPtr == old(cpuPtr)
      ensures old(allocatedGpu) ==> g == old(gpuPtr) && unchanged(bank)
      ensures old(Initialized()) ==> gpuPtr[..] == old(Contents())
      ensures !old(Initialized()) && !old(allocatedGpu) && clearOnAllocation ==> gpuPtr[..] == Zeros(totalMemory)
    {
      ToGpu(bank);
      g := gpuPtr;
    }

    /** `mutable_gpu_data`: the device twin of `MutableCpuData`. */
    method MutableGpuData(bank: Bank) returns (g: array<int>)
      requires cuda && Valid() && bank.Valid() && OutsideBank(bank)
      modifies this, Buffers(), bank, bank.Held()
      ensures Valid() && bank.Valid() && OutsideBank(bank) && bank.Held() <= old(bank.Held()) && BlocksFrom(bank)
      ensures g == gpuPtr && gpuFresh && !cpuFresh
      ensures allocatedCpu == old(allocatedCpu) && cpuPtr == old(cpuPtr)
      ensures old(allocatedGpu) ==> g == old(gpuPtr) && unchanged(bank)
      ensures old(Initialized()) ==> Contents() == old(Contents())
      ensures !old(Initialized()) && !old(allocatedGpu) && clearOnAllocation ==> Contents() == Zeros(totalMemory)
    {
      ToGpu(bank);
      cpuFresh := false;
      g := gpuPtr;
    }

    /** `clear`: set the clearing flag, then zero a block on the preferred
        device and make it the only fresh copy.  Without CUDA a memory that
        prefers the device only gets the flag. */
    method Clear(bank: Bank)
      requires Valid() && bank.Valid() && OutsideBank(bank)
      modifies this, Buffers(), bank, bank.Held()
      ensures Valid() && bank.Valid() && OutsideBank(bank) && bank.Held() <= old(bank.Held()) && BlocksFrom(bank) && clearOnAllocation
      ensures preferred == CPU ==> cpuFresh && !gpuFresh && Contents() == Zeros(totalMemory)
      ensures preferred == CPU ==> allocatedGpu == old(allocatedGpu) && gpuPtr == old(gpuPtr)
      ensures preferred == GPU && cuda ==> gpuFresh && !cpuFresh && Contents() == Zeros(totalMemory)
      ensures preferred == GPU && cuda ==> allocatedCpu == old(allocatedCpu) && cpuPtr == old(cpuPtr)
      ensures preferred == CPU && old(allocatedCpu) ==> cpuPtr == old(cpuPtr) && unchanged(bank)
      ensures preferred == GPU && cuda && old(allocatedGpu) ==> gpuPtr == old(gpuPtr) && unchanged(bank)
      ensures preferred == GPU && !cuda ==>
                cpuFresh == old(cpuFresh) && allocatedCpu == old(allocatedCpu) && cpuPtr == old(cpuPtr) &&
                unchanged(bank) && (cpuPtr != null ==> cpuPtr[..] == old(cpuPtr[..]))
    {
      clearOnAllocation := true;
      if cuda && preferred == GPU {
        var _ := AllocateGpu(bank);
        FillZero(gpuPtr);
        cpuFresh := false;
        gpuFresh := true;
        return;
      }
      if preferred == CPU {
        var _ := AllocateCpu(bank);
        FillZero(cpuPtr);
        cpuFresh := true;
        if cuda {
          gpuFresh := false;
        }
      }
    }

    /** `lazy_clear` as written: with nothing allocated on the host only the
        flag is set.  The CUDA build tests `allocatedCpu` twice, so a memory
        whose only block is on the device is not cleared either. */
    method LazyClear(bank: Bank)
      requires Valid() && bank.Valid() && OutsideBank(bank)
      modifies this, Buffers(), bank, bank.Held()
      ensures Valid() && bank.Valid() && OutsideBank(bank) && bank.Held() <= old(bank.Held()) && BlocksFrom(bank) && clearOnAllocation
      ensures !old(allocatedCpu) ==>
                unchanged(bank) && cpuFresh == old(cpuFresh) && gpuFresh == old(gpuFresh) &&
                allocatedCpu == old(allocatedCpu) && allocatedGpu == old(allocatedGpu) &&
                cpuPtr == old(cpuPtr) && gpuPtr == old(gpuPtr) &&
                (gpuPtr != null ==> gpuPtr[..] == old(gpuPtr[..]))
      ensures old(allocatedCpu) && (preferred == CPU || cuda) ==> Initialized() && ReadsAsZero()
      ensures old(allocatedCpu) && preferred == GPU && !cuda ==>
                cpuFresh == old(cpuFresh) && allocatedCpu == old(allocatedCpu) && cpuPtr == old(cpuPtr) &&
                unchanged(bank) && (cpuPtr != null ==> cpuPtr[..] == old(cpuPtr[..]))
    {
      clearOnAllocation := true;
      if cuda {
        if !allocatedCpu && !allocatedCpu {
          return;
        }
      } else {
        if !allocatedCpu {
          return;
        }
      }
      Clear(bank);
    }

    /** `lazy_clear` with the device test it evidently meant
        (`!allocated_cpu && !allocated_gpu`): afterwards every read sees zeros. */
    method LazyClearIntended(bank: Bank)
      requires Valid() && bank.Valid() && OutsideBank(bank)
      modifies this, Buffers(), bank, bank.Held()
      ensures Valid() && bank.Valid() && OutsideBank(bank) && bank.Held() <= old(bank.Held()) && BlocksFrom(bank) && clearOnAllocation
      ensures preferred == CPU || cuda ==> ReadsAsZero()
    {
      clearOnAllocation := true;
      if !allocatedCpu && !allocatedGpu {
        return;
      }
      Clear(bank);
    }

    /** `copy_data_from`: copy `source` into a block on the preferred device
        and mark that copy fresh.  Its one caller is the copy constructor,
        on a memory with no fresh copy yet. */
    method CopyDataFrom(source: seq<int>, bank: Bank)
      requires Valid() && bank.Valid() && OutsideBank(bank) && !Initialized()
      requires |source| == totalMemory
      modifies this, Buffers(), bank, bank.Held()
      ensures Valid() && bank.Valid() && OutsideBank(bank) && bank.Held() <= old(bank.Held()) && BlocksFrom(bank)
      ensures clearOnAllocation == old(clearOnAllocation)
      ensures Initialized() <==> preferred == CPU || cuda
      ensures Initialized() ==> Contents() == source
    {
      if preferred == CPU {
        var _ := AllocateCpu(bank);
        Store(cpuPtr, source);
        cpuFresh := true;
      } else if cuda {
        var _ := AllocateGpu(bank);
        Store(gpuPtr, source);
        gpuFresh := true;
      }
    }

    /** `free_cpu`: hand the host block back to the bank.  Only the destructor
        calls it, so the object invariant is not re-established. */
    method FreeCpu(bank: Bank)
      requires Valid() && bank.Valid() && OutsideBank(bank)
      modifies this, bank
      ensures bank.Valid() && !allocatedCpu && cpuPtr == null
      ensures old(allocatedCpu) ==>
                bank.cpuBank == Deposited(old(bank.cpuBank), totalMemory, old(cpuPtr)) &&
                bank.gpuBank == old(bank.gpuBank)
      ensures !old(allocatedCpu) ==> unchanged(bank)
      ensures cpuFresh == old(cpuFresh) && gpuFresh == old(gpuFresh)
      ensures allocatedGpu == old(allocatedGpu) && gpuPtr == old(gpuPtr)
    {
      if allocatedCpu {
        bank.DepositCpu(totalMemory, innerDimension, cpuPtr);
        cpuPtr := null;
      }
      allocatedCpu := false;
    }

    /** `free_gpu`: the device twin of `FreeCpu`. */
    method FreeGpu(bank: Bank)
      requires cuda && Valid() && bank.Valid() && OutsideBank(bank)
      modifies this, bank
      ensures bank.Valid() && !allocatedGpu && gpuPtr == null
      ensures old(allocatedGpu) ==>
                bank.gpuBank == Deposited(old(bank.gpuBank), totalMemory, old(gpuPtr)) &&
                bank.cpuBank == old(bank.cpuBank)
      ensures !old(allocatedGpu) ==> unchanged(bank)
      ensures cpuFresh == old(cpuFresh) && gpuFresh == old(gpuFresh)
      ensures allocatedCpu == old(allocatedCpu) && cpuPtr == old(cpuPtr)
    {
      if allocatedGpu {
        bank.DepositGpu(totalMemory, innerDimension, gpuPtr);
        gpuPtr := null;
      }
      allocatedGpu := false;
    }
  }
}

=== FILE: tensor_accessor.dfy ===
/** The host gather and scatter-add kernels over 2-D tensors, and the
    dispatchers that hand them the host blocks of two tensors. */
module TensorAccessor {
  import opened MemoryBank
  import opened SynchronizedMemory
  import opened TensorInternal

  /** The layout of a host `mshadow::Tensor<cpu, 2>` inside its block:
      where element (0, 0) sits, the rows and the columns; the row stride is
      the column count. */
  datatype Grid = Grid(offset: nat, rows: nat, cols: nat)

  /** The block position of `m[r][c]`. */
  function Addr(g: Grid, r: nat, c: nat): nat
  {
    g.offset + g.cols * r + c
  }

  /** One past the last position the grid covers. */
  function End(g: Grid): nat
  {
    g.offset + g.rows * g.cols
  }

  /** The host view of a matrix tensor: its offset and its two dimensions. */
  function GridOf(t: Tensor): (g: Grid)
    requires |t.shape| == 2
    ensures End(g) == t.offset + NumberOfElements(t)
    ensures forall r: nat, c: nat :: Addr(g, r, c) == GridPosition(t, r, c)
  {
    assert Size(t.shape[1..]) == t.shape[1] * Size(t.shape[1..][1..]);
    assert Size(t.shape[1..][1..]) == 1;
    Grid(t.offset, t.shape[0], t.shape[1])
  }

  lemma CellInside(g: Grid, r: nat, c: nat)
    requires r < g.rows && c < g.cols
    ensures g.offset <= Addr(g, r, c) < End(g)
  {
    MulMonotone(r + 1, g.rows, g.cols);
  }

  /** Distinct cells of a grid sit at distinct positions. */
  lemma CellDistinct(g: Grid, r1: nat, c1: nat, r2: nat, c2: nat)
    requires c1 < g.cols && c2 < g.cols && (r1 != r2 || c1 != c2)
    ensures Addr(g, r1, c1) != Addr(g, r2, c2)
  {
    if r1 < r2 {
      MulMonotone(r1 + 1, r2, g.cols);
    } else if r2 < r1 {
      MulMonotone(r2 + 1, r1, g.cols);
    }
  }

  /** The value of `m[r][c]` in the block contents `s`. */
  function Cell(s: seq<int>, g: Grid, r: nat, c: nat): int
    requires r < g.rows && c < g.cols && End(g) <= |s|
  {
    CellInside(g, r, c);
    s[Addr(g, r, c)]
  }

  /** Writing one cell of a grid leaves every other cell as it was, and the
      write lands inside the grid. */
  lemma CellWritten(s: seq<int>, after: seq<int>, g: Grid, r: nat, c: nat, v: int)
    requires r < g.rows && c < g.cols && End(g) <= |s|
    requires |after| == |s| && forall p :: 0 <= p < |s| && p != Addr(g, r, c) ==> after[p] == s[p]
    requires Addr(g, r, c) < |s| ==> after[Addr(g, r, c)] == v
    ensures g.offset <= Addr(g, r, c) < End(g)
    ensures Cell(after, g, r, c) == v
    ensures forall r2: nat, c2: nat :: r2 < g.rows && c2 < g.cols && (r2 != r || c2 != c) ==>
              Cell(after, g, r2, c2) == Cell(s, g, r2, c2)
  {
    CellInside(g, r, c);
    forall r2: nat, c2: nat | r2 < g.rows && c2 < g.cols && (r2 != r || c2 != c)
      ensures Cell(after, g, r2, c2) == Cell(s, g, r2, c2)
    {
      CellInside(g, r2, c2);
      CellDistinct(g, r, c, r2, c2);
    }
  }

  /** `a` and `b` differ at most on the positions `lo .. hi`. */
  ghost predicate SameOutside(a: seq<int>, b: seq<int>, lo: nat, hi: nat)
  {
    |a| == |b| && forall p :: 0 <= p < |a| && !(lo <= p < hi) ==> a[p] == b[p]
  }

  /** `select_from_cols` on the host: entry `col` of the destination's block
      becomes `source[targets[col]][col]`, for every column of the source;
      nothing else in the destination changes. */
  method SelectFromColsCpu(dest: array<int>, dg: Grid, source: array<int>, sg: Grid, targets: seq<nat>)
    requires dest != source && End(sg) <= source.Length && dg.offset + sg.cols <= dest.Length
    requires |targets| >= sg.cols && forall col :: 0 <= col < sg.cols ==> targets[col] < sg.rows
    modifies dest
    ensures forall col :: 0 <= col < sg.cols ==> dest[dg.offset + col] == Cell(source[..], sg, targets[col], col)
    ensures SameOutside(dest[..], old(dest[..]), dg.offset, dg.offset + sg.cols)
  {
    for col := 0 to sg.cols
      invariant forall k :: 0 <= k < col ==> dest[dg.offset + k] == Cell(source[..], sg, targets[k], k)
      invariant SameOutside(dest[..], old(dest[..]), dg.offset, dg.offset + col)
    {
      CellInside(sg, targets[col], col);
      dest[dg.offset + col] := source[Addr(sg, targets[col], col)];
    }
  }

  /** `rows_pluck` on the host: source row `indices[idx]` becomes destination
      column `idx`; the other columns and everything outside the
      destination grid keep their values. */
  method RowsPluckCpu(dest: array<int>, dg: Grid, source: array<int>, sg: Grid, indices: seq<nat>)
    requires dest != source && End(dg) <= dest.Length && End(sg) <= source.Length
    requires |indices| <= dg.cols && dg.rows <= sg.cols
    requires forall idx :: 0 <= idx < |indices| ==> indices[idx] < sg.rows
    modifies dest
    ensures forall c: nat, idx: nat :: c < dg.rows && idx < |indices| ==>
              Cell(dest[..], dg, c, idx) == Cell(source[..], sg, indices[idx], c)
    ensures forall c: nat, k: nat :: c < dg.rows && |indices| <= k < dg.cols ==>
              Cell(dest[..], dg, c, k) == Cell(old(dest[..]), dg, c, k)
    ensures SameOutside(dest[..], old(dest[..]), dg.offset, End(dg))
  {
    for idx := 0 to |indices|
      invariant forall c: nat, k: nat :: c < dg.rows && k < dg.cols ==>
                  Cell(dest[..], dg, c, k) ==
                    if k < idx then Cell(source[..], sg, indices[k], c) else Cell(old(dest[..]), dg, c, k)
      invariant SameOutside(dest[..], old(dest[..]), dg.offset, End(dg))
    {
      for col := 0 to dg.rows
        invariant forall c: nat, k: nat :: c < dg.rows && k < dg.cols ==>
                    Cell(dest[..], dg, c, k) ==
                      if k < idx || (k == idx && c < col) then Cell(source[..], sg, indices[k], c)
                      else Cell(old(dest[..]), dg, c, k)
        invariant SameOutside(dest[..], old(dest[..]), dg.offset, End(dg))
      {
        ghost var before := dest[..];
        CellInside(sg, indices[idx], col);
        var v := source[Addr(sg, indices[idx], col)];
        CellInside(dg, col, idx);
        dest[Addr(dg, col, idx)] := v;
        CellWritten(before, dest[..], dg, col, idx, v);
      }
    }
  }

  /** What `rows_pluck_backprop` adds into `dest[r][c]` from the first `n`
      indices: `source[c][idx]` once for every `idx < n` that names row `r`. */
  function Accumulated(s: seq<int>, sg: Grid, indices: seq<nat>, r: nat, c: nat, n: nat): int
    requires n <= |indices| && n <= sg.cols && c < sg.rows && End(sg) <= |s|
  {
    if n == 0 then 0
    else Accumulated(s, sg, indices, r, c, n - 1) + (if indices[n - 1] == r then Cell(s, sg, c, n - 1) else 0)
  }

  /** A row that no index names receives nothing. */
  lemma {:induction false} AccumulatedUnnamed(s: seq<int>, sg: Grid, indices: seq<nat>, r: nat, c: nat, n: nat)
    requires n <= |indices| && n <= sg.cols && c < sg.rows && End(sg) <= |s|
    requires forall k :: 0 <= k < n ==> indices[k] != r
    ensures Accumulated(s, sg, indices, r, c, n) == 0
  {
    if n > 0 {
      AccumulatedUnnamed(s, sg, indices, r, c, n - 1);
    }
  }

  /** A row named by exactly one index `k` receives exactly `source[c][k]`. */
  lemma {:induction false} AccumulatedOnce(s: seq<int>, sg: Grid, indices: seq<nat>, r: nat, c: nat, n: nat, k: nat)
    requires n <= |indices| && n <= sg.cols && c < sg.rows && End(sg) <= |s|
    requires k < n && indices[k] == r && forall j :: 0 <= j < n && j != k ==> indices[j] != r
    ensures Accumulated(s, sg, indices, r, c, n) == Cell(s, sg, c, k)
  {
    if k == n - 1 {
      AccumulatedUnnamed(s, sg, indices, r, c, n - 1);
    } else {
      AccumulatedOnce(s, sg, indices, r, c, n - 1, k);
    }
  }

  /** A repeated index accumulates once per occurrence: with unit gradients
      row `r` receives the number of times it is named. */
  lemma {:induction false} AccumulatedCounts(s: seq<int>, sg: Grid, indices: seq<nat>, r: nat, c: nat, n: nat)
    requires n <= |indices| && n <= sg.cols && c < sg.rows && End(sg) <= |s|
    requires forall k :: 0 <= k < n ==> Cell(s, sg, c, k) == 1
    ensures Accumulated(s, sg, indices, r, c, n) == multiset(indices[..n])[r]
  {
    if n > 0 {
      AccumulatedCounts(s, sg, indices, r, c, n - 1);
      assert indices[..n] == indices[..n - 1] + [indices[n - 1]];
    }
  }

  /** `rows_pluck_backprop` on the host: every `dest[r][c]` gains the
      accumulated `source[c][idx]` of the indices naming `r`; rows no index
      names and everything outside the destination grid are unchanged. */
  method RowsPluckBackpropCpu(dest: array<int>, dg: Grid, source: array<int>, sg: Grid, indices: seq<nat>)
    requires dest != source && End(dg) <= dest.Length && End(sg) <= source.Length
    requires |indices| <= sg.cols && dg.cols <= sg.rows
    requires forall idx :: 0 <= idx < |indices| ==> indices[idx] < dg.rows
    modifies dest
    ensures forall r: nat, c: nat :: r < dg.rows && c < dg.cols ==>
              Cell(dest[..], dg, r, c) == Cell(old(dest[..]), dg, r, c) + Accumulated(source[..], sg, indices, r, c, |indices|)
    ensures forall r: nat, c: nat :: r < dg.rows && c < dg.cols && r !in indices ==>
              Cell(dest[..], dg, r, c) == Cell(old(dest[..]), dg, r, c)
    ensures SameOutside(dest[..], old(dest[..]), dg.offset, End(dg))
  {
    for idx := 0 to |indices|
      invariant forall r: nat, c: nat :: r < dg.rows && c < dg.cols ==>
                  Cell(dest[..], dg, r, c) == Cell(old(dest[..]), dg, r, c) + Accumulated(source[..], sg, indices, r, c, idx)
      invariant SameOutside(dest[..], old(dest[..]), dg.offset, End(dg))
    {
      for col := 0 to dg.cols
        invariant forall r: nat, c: nat :: r < dg.rows && c < dg.cols ==>
                    Cell(dest[..], dg, r, c) ==
                      Cell(old(dest[..]), dg, r, c) + Accumulated(source[..], sg, indices, r, c, idx) +
                      (if r == indices[idx] && c < col then Cell(source[..], sg, c, idx) else 0)
        invariant SameOutside(dest[..], old(dest[..]), dg.offset, End(dg))
      {
        ghost var before := dest[..];
        CellInside(dg, indices[idx], col);
        CellInside(sg, col, idx);
        var v := dest[Addr(dg, indices[idx], col)] + source[Addr(sg, col, idx)];
        dest[Addr(dg, indices[idx], col)] := v;
        CellWritten(before, dest[..], dg, indices[idx], col, v);
      }
    }
    forall r: nat, c: nat | r < dg.rows && c < dg.cols && r !in indices
      ensures Accumulated(source[..], sg, indices, r, c, |indices|) == 0
    {
      AccumulatedUnnamed(source[..], sg, indices, r, c, |indices|);
    }
  }

  /** What the dispatchers ask of their two matrices: each is a 2-D view
      lying inside its own memory, the memories are distinct and share no
      block, and the source is not computed on the device, so the host
      branch runs. */
  ghost predicate HostPair(dest: Tensor, source: Tensor, bank: Bank)
    reads dest.memory, dest.memory.Buffers(), source.memory, source.memory.Buffers(), bank
  {
    && |dest.shape| == 2 && |source.shape| == 2
    && Ready(dest, bank) && Ready(source, bank)
    && dest.memory != source.memory && dest.memory.Buffers() !! source.memory.Buffers()
    && dest.offset + NumberOfElements(dest) <= dest.memory.totalMemory
    && source.offset + NumberOfElements(source) <= source.memory.totalMemory
    && !(source.memory.cuda && source.memory.preferred == GPU && (source.memory.gpuFresh || !source.memory.cpuFresh))
  }

  /** The host blocks of both memories, refreshed: the destination's through
      `mutable_cpu_data`, the source's through `cpu_data`. */
  method HostBlocks(dest: Tensor, source: Tensor, bank: Bank) returns (d: array<int>, s: array<int>)
    requires HostPair(dest, source, bank)
    modifies dest.memory, dest.memory.Buffers(), source.memory, source.memory.Buffers(), bank, bank.Held()
    ensures Ready(dest, bank) && Ready(source, bank) && d != s && dest.memory.BlocksFrom(bank)
    ensures dest.memory.Buffers() !! source.memory.Buffers()
    ensures d == dest.memory.cpuPtr && dest.memory.cpuFresh && !dest.memory.gpuFresh
    ensures s == source.memory.cpuPtr && source.memory.cpuFresh
    ensures old(dest.memory.Initialized()) ==> dest.memory.Contents() == old(dest.memory.Contents())
    ensures old(source.memory.Initialized()) ==> source.memory.Contents() == old(source.memory.Contents())
  {
    d := dest.memory.MutableCpuData(bank);
    assert dest.memory.Buffers() !! source.memory.Buffers();
    assert source.memory.Valid() && source.memory.OutsideBank(bank);
    s := source.memory.CpuData(bank);
  }

  /** `select_from_cols` on two matrix tensors (host branch). */
  method SelectFromCols(dest: Tensor, source: Tensor, targets: seq<nat>, bank: Bank)
    requires HostPair(dest, source, bank)
    requires |targets| >= source.shape[1] && forall col :: 0 <= col < source.shape[1] ==> targets[col] < source.shape[0]
    requires dest.offset + source.shape[1] <= dest.memory.totalMemory
    modifies dest.memory, dest.memory.Buffers(), source.memory, source.memory.Buffers(), bank, bank.Held()
    ensures Ready(dest, bank) && Ready(source, bank) && dest.memory.cpuFresh && source.memory.cpuFresh
    ensures old(source.memory.Initialized()) ==> source.memory.Contents() == old(source.memory.Contents())
    ensures forall col :: 0 <= col < source.shape[1] ==>
              dest.memory.Contents()[dest.offset + col] == Cell(source.memory.Contents(), GridOf(source), targets[col], col)
    ensures old(dest.memory.Initialized()) ==>
              SameOutside(dest.memory.Contents(), old(dest.memory.Contents()), dest.offset, dest.offset + source.shape[1])
  {
    var d, s := HostBlocks(dest, source, bank);
    SelectFromColsCpu(d, GridOf(dest), s, GridOf(source), targets);
  }

  /** `rows_pluck` on two matrix tensors (host branch); the index tensor is
      given by its values. */
  method RowsPluck(dest: Tensor, source: Tensor, indices: seq<nat>, bank: Bank)
    requires HostPair(dest, source, bank)
    requires |indices| <= dest.shape[1] && dest.shape[0] <= source.shape[1]
    requires forall idx :: 0 <= idx < |indices| ==> indices[idx] < source.shape[0]
    modifies dest.memory, dest.memory.Buffers(), source.memory, source.memory.Buffers(), bank, bank.Held()
    ensures Ready(dest, bank) && Ready(source, bank) && dest.memory.cpuFresh && source.memory.cpuFresh
    ensures old(source.memory.Initialized()) ==> source.memory.Contents() == old(source.memory.Contents())
    ensures forall c: nat, idx: nat :: c < dest.shape[0] && idx < |indices| ==>
              Cell(dest.memory.Contents(), GridOf(dest), c, idx) ==
              Cell(source.memory.Contents(), GridOf(source), indices[idx], c)
    ensures old(dest.memory.Initialized()) ==>
              (forall c: nat, k: nat :: c < dest.shape[0] && |indices| <= k < dest.shape[1] ==>
                 Cell(dest.memory.Contents(), GridOf(dest), c, k) == Cell(old(dest.memory.Contents()), GridOf(dest), c, k)) &&
              SameOutside(dest.memory.Contents(), old(dest.memory.Contents()), dest.offset, End(GridOf(dest)))
  {
    var d, s := HostBlocks(dest, source, bank);
    RowsPluckCpu(d, GridOf(dest), s, GridOf(source), indices);
  }

  /** `rows_pluck_backprop` on two matrix tensors (host branch): the
      destination accumulates the source's columns into the named rows. */
  method RowsPluckBackprop(dest: Tensor, source: Tensor, indices: seq<nat>, bank: Bank)
    requires HostPair(dest, source, bank)
    requires |indices| <= source.shape[1] && dest.shape[1] <= source.shape[0]
    requires forall idx :: 0 <= idx < |indices| ==> indices[idx] < dest.shape[0]
    modifies dest.memory, dest.memory.Buffers(), source.memory, source.memory.Buffers(), bank, bank.Held()
    ensures Ready(dest, bank) && Ready(source, bank) && dest.memory.cpuFresh && source.memory.cpuFresh
    ensures old(source.memory.Initialized()) ==> source.memory.Contents() == old(source.memory.Contents())
    ensures old(dest.memory.Initialized()) ==>
              (forall r: nat, c: nat :: r < dest.shape[0] && c < dest.shape[1] ==>
                 Cell(dest.memory.Contents(), GridOf(dest), r, c) ==
                 Cell(old(dest.memory.Contents()), GridOf(dest), r, c) +
                 Accumulated(source.memory.Contents(), GridOf(source), indices, r, c, |indices|)) &&
              SameOutside(dest.memory.Contents(), old(dest.memory.Contents()), dest.offset, End(GridOf(dest)))
  {
    var d, s := HostBlocks(dest, source, bank);
    RowsPluckBackpropCpu(d, GridOf(dest), s, GridOf(source), indices);
  }
}

=== FILE: tensor_internal.dfy ===
/** A tensor is a view: a shape, a shared synchronized memory and an offset
    into it.  Indexing, slicing and ravelling build new views of the same
    memory; element access reads or writes the memory's host block at
    `offset + position`. */
module TensorInternal {
  import opened MemoryBank
  import opened SynchronizedMemory

  /** mshadow's `index_t` is an unsigned 32-bit integer. */
  const IndexModulus: nat := 0x1_0000_0000

  type IndexT = x: nat | x < IndexModulus

  type Shape = seq<nat>

  /** `Shape::Size()`: the product of the dimensions (1 for none). */
  function Size(s: Shape): nat
  {
    if |s| == 0 then 1 else s[0] * Size(s[1..])
  }

  /** `Shape::SubShape()`: every dimension but the first. */
  function SubShape(s: Shape): Shape
    requires |s| >= 1
  {
    s[1..]
  }

  datatype Tensor = Tensor(shape: Shape, memory: SyncMemory, offset: nat)

  /** `number_of_elements`. */
  function NumberOfElements(t: Tensor): nat
  {
    Size(t.shape)
  }

  /** `t[idx]`: the sub-tensor at `idx` along the first dimension. */
  function Index(t: Tensor, idx: IndexT): Tensor
    requires |t.shape| >= 1
  {
    Tensor(SubShape(t.shape), t.memory, t.offset + Size(SubShape(t.shape)) * idx)
  }

  /** `ravel`: the same elements as one dimension. */
  function Ravel(t: Tensor): Tensor
  {
    Tensor([NumberOfElements(t)], t.memory, t.offset)
  }

  /** `Slice(begin, end)`: rows `begin` to `end` of the first dimension; the
      new length `end - begin` is computed in unsigned 32-bit arithmetic. */
  function Slice(t: Tensor, begin: IndexT, end: IndexT): Tensor
    requires |t.shape| >= 1
  {
    Tensor(t.shape[0 := (end - begin) % IndexModulus], t.memory, t.offset + Size(SubShape(t.shape)) * begin)
  }

  /** The memory position that `operator()(i)` of `t` reaches. */
  function FlatPosition(t: Tensor, i: nat): nat
  {
    t.offset + i
  }

  /** The memory position that `operator()(i, j)` of `t` reaches: the host
      view's row stride is the last dimension. */
  function GridPosition(t: Tensor, i: nat, j: nat): nat
    requires |t.shape| >= 1
  {
    t.offset + t.shape[|t.shape| - 1] * i + j
  }

  lemma MulMonotone(a: nat, b: nat, c: nat)
    requires a <= b
    ensures a * c <= b * c
  {
  }

  /** The last dimension divides the size, so the memory's constructor
      check `total % inner == 0` holds for a tensor built from a shape. */
  lemma {:induction false} LastDimDividesSize(s: Shape)
    requires |s| >= 1 && s[|s| - 1] > 0
    ensures Size(s) % s[|s| - 1] == 0
  {
    var last := s[|s| - 1];
    if |s| == 1 {
      assert Size(s[1..]) == 1;
      MultipleMod(1, last);
    } else {
      LastDimDividesSize(s[1..]);
      var q := Size(s[1..]) / last;
      assert Size(s[1..]) == q * last;
      Reassociate(s[0], q, last);
      MultipleMod(s[0] * q, last);
    }
  }

  lemma Reassociate(a: nat, b: nat, c: nat)
    ensures a * (b * c) == (a * b) * c
  {
  }

  lemma MultipleMod(m: nat, l: nat)
    requires l > 0
    ensures (m * l) % l == 0
  {
    var x, q, r := m * l, (m * l) / l, (m * l) % l;
    assert x == q * l + r && 0 <= r < l;
    assert (m - q) * l == r;
    if m - q >= 1 {
      MulAtLeast(m - q, l);
    } else if m - q <= -1 {
      MulAtLeast(q - m, l);
    }
  }

  lemma MulAtLeast(a: int, l: nat)
    requires a >= 1
    ensures a * l >= l
  {
  }

  /** `t[idx]` covers elements `idx * sub .. (idx + 1) * sub` of `t`: every
      element of the view is an element of `t`, at that flat position. */
  lemma IndexWithin(t: Tensor, idx: IndexT, k: nat)
    requires |t.shape| >= 1 && idx < t.shape[0] && k < NumberOfElements(Index(t, idx))
    ensures Index(t, idx).memory == t.memory
    ensures FlatPosition(Index(t, idx), k) == FlatPosition(t, Size(SubShape(t.shape)) * idx + k)
    ensures Size(SubShape(t.shape)) * idx + k < NumberOfElements(t)
  {
    var sub := Size(SubShape(t.shape));
    MulMonotone(idx + 1, t.shape[0], sub);
    assert sub * idx + k < (idx + 1) * sub;
  }

  /** Indexing a slice is indexing the tensor at the shifted position. */
  lemma SliceThenIndex(t: Tensor, begin: IndexT, end: IndexT, i: IndexT)
    requires |t.shape| >= 1 && begin + i < IndexModulus
    ensures Index(Slice(t, begin, end), i) == Index(t, begin + i)
  {
    var s := Slice(t, begin, end);
    assert SubShape(s.shape) == SubShape(t.shape);
    var sub := Size(SubShape(t.shape));
    assert sub * begin + sub * i == sub * (begin + i);
  }

  /** A slice of an ordered range has `end - begin` rows of the sub-shape,
      and a slice within the first dimension stays inside the tensor. */
  lemma SliceExtent(t: Tensor, begin: IndexT, end: IndexT)
    requires |t.shape| >= 1 && begin <= end
    ensures Slice(t, begin, end).shape[0] == end - begin
    ensures SubShape(Slice(t, begin, end).shape) == SubShape(t.shape)
    ensures NumberOfElements(Slice(t, begin, end)) == (end - begin) * Size(SubShape(t.shape))
    ensures end <= t.shape[0] ==>
              Slice(t, begin, end).offset + NumberOfElements(Slice(t, begin, end)) <= t.offset + NumberOfElements(t)
  {
    var s := Slice(t, begin, end);
    var sub := Size(SubShape(t.shape));
    assert SubShape(s.shape) == SubShape(t.shape);
    if end <= t.shape[0] {
      MulMonotone(end, t.shape[0], sub);
      assert sub * begin + (end - begin) * sub == end * sub;
    }
  }

  /** A reversed range wraps: `Slice(b, e)` with `e < b` claims `2^32 - (b - e)` rows. */
  lemma SliceReversedWraps(t: Tensor, begin: IndexT, end: IndexT)
    requires |t.shape| >= 1 && end < begin
    ensures Slice(t, begin, end).shape[0] == IndexModulus - (begin - end)
  {
  }

  /** Slicing the whole first dimension gives back the same view. */
  lemma WholeSlice(t: Tensor)
    requires |t.shape| >= 1 && t.shape[0] < IndexModulus
    ensures Slice(t, 0, t.shape[0]) == t
  {
    assert t.shape[0 := t.shape[0]] == t.shape;
  }

  /** `ravel` keeps memory, offset and element count. */
  lemma RavelKeepsElements(t: Tensor, i: nat)
    ensures Ravel(t).memory == t.memory && Ravel(t).offset == t.offset
    ensures NumberOfElements(Ravel(t)) == NumberOfElements(t)
    ensures FlatPosition(Ravel(t), i) == FlatPosition(t, i)
  {
    assert Size([NumberOfElements(t)][1..]) == 1;
  }

  /** On a matrix, `t(i, j)` is element `j` of the row view `t[i]`. */
  lemma GridIsRowThenColumn(t: Tensor, i: IndexT, j: nat)
    requires |t.shape| == 2
    ensures GridPosition(t, i, j) == FlatPosition(Index(t, i), j)
  {
    assert SubShape(t.shape) == [t.shape[1]];
    assert Size([t.shape[1]][1..]) == 1;
  }

  /** `compute_me_on_gpu`: the device rule applied to this tensor's memory
      alone (with one memory the tie-breaker plays no part). */
  method ComputeMeOnGpu(t: Tensor) returns (r: bool)
    ensures r <==> t.memory.cuda && t.memory.preferred == GPU && (t.memory.gpuFresh || !t.memory.cpuFresh)
  {
    r := ShouldComputeOnGpu(t.memory.cuda, [t.memory.Place()], CPU);
  }

  /** Preconditions shared by everything that touches a tensor's memory. */
  ghost predicate Ready(t: Tensor, bank: Bank)
    reads t.memory, t.memory.Buffers(), bank
  {
    t.memory.Valid() && bank.Valid() && t.memory.OutsideBank(bank)
  }

  /** The shape constructor: offset 0 and a new, unallocated memory of
      `Size(shape)` elements split into rows of the last dimension.  The
      preferred device and clearing flag are the memory constructor's
      default arguments, which are not part of this model. */
  method NewTensor(shape: Shape, preferred: Device, clearOnAllocation: bool, cuda: bool) returns (t: Tensor)
    requires |shape| >= 1 && shape[|shape| - 1] > 0
    ensures t.shape == shape && t.offset == 0 && fresh(t.memory)
    ensures t.memory.Valid() && !t.memory.Initialized() && !t.memory.allocatedCpu && !t.memory.allocatedGpu
    ensures t.memory.totalMemory == NumberOfElements(t) && t.memory.innerDimension == shape[|shape| - 1]
    ensures t.memory.preferred == preferred && t.memory.clearOnAllocation == clearOnAllocation && t.memory.cuda == cuda
  {
    LastDimDividesSize(shape);
    var memory := new SyncMemory(Size(shape), shape[|shape| - 1], preferred, clearOnAllocation, cuda);
    t := Tensor(shape, memory, 0);
  }

  /** The copy constructor: same shape and offset; the same memory, or with
      `copyMemory` a new memory with the same size and settings that holds
      the source's data whenever the source has some and its preferred
      device exists. */
  method CopyTensor(other: Tensor, copyMemory: bool, bank: Bank) returns (t: Tensor)
    requires Ready(other, bank)
    modifies bank, bank.Held()
    ensures bank.Valid() && other.memory.OutsideBank(bank)
    ensures t.shape == other.shape && t.offset == other.offset
    ensures !copyMemory ==> t.memory == other.memory
    ensures copyMemory ==>
              fresh(t.memory) && Ready(t, bank) && t.memory.Buffers() !! other.memory.Buffers()
    ensures copyMemory ==>
              t.memory.totalMemory == other.memory.totalMemory &&
              t.memory.innerDimension == other.memory.innerDimension &&
              t.memory.preferred == other.memory.preferred &&
              t.memory.clearOnAllocation == other.memory.clearOnAllocation && t.memory.cuda == other.memory.cuda
    ensures copyMemory ==>
              (t.memory.Initialized() <==>
                 other.memory.Initialized() && (other.memory.preferred == CPU || other.memory.cuda))
    ensures copyMemory && t.memory.Initialized() ==> t.memory.Contents() == other.memory.Contents()
  {
    t := Tensor(other.shape, other.memory, other.offset);
    if copyMemory {
      var memory := new SyncMemory.Copy(other.memory, bank);
      t := t.(memory := memory);
    }
  }

  /** `operator()(i) const`: the element at `offset + i` of the refreshed
      host block; the memory's logical contents are unchanged. */
  method At(t: Tensor, i: nat, bank: Bank) returns (v: int)
    requires Ready(t, bank) && FlatPosition(t, i) < t.memory.totalMemory
    modifies t.memory, t.memory.Buffers(), bank, bank.Held()
    ensures Ready(t, bank) && t.memory.cpuFresh
    ensures old(t.memory.Initialized()) ==>
              t.memory.Contents() == old(t.memory.Contents()) && v == old(t.memory.Contents())[FlatPosition(t, i)]
  {
    var p := t.memory.CpuData(bank);
    v := p[FlatPosition(t, i)];
  }

  /** `operator()(i, j) const`: the element at `offset + stride * i + j`. */
  method At2(t: Tensor, i: nat, j: nat, bank: Bank) returns (v: int)
    requires |t.shape| >= 1 && Ready(t, bank) && GridPosition(t, i, j) < t.memory.totalMemory
    modifies t.memory, t.memory.Buffers(), bank, bank.Held()
    ensures Ready(t, bank) && t.memory.cpuFresh
    ensures old(t.memory.Initialized()) ==>
              t.memory.Contents() == old(t.memory.Contents()) && v == old(t.memory.Contents())[GridPosition(t, i, j)]
  {
    var p := t.memory.CpuData(bank);
    v := p[GridPosition(t, i, j)];
  }

  /** `operator()(i) = v`, through `mutable_cpu_data`: the host copy becomes
      the only fresh one and holds `v` at `offset + i`. */
  method Put(t: Tensor, i: nat, v: int, bank: Bank)
    requires Ready(t, bank) && FlatPosition(t, i) < t.memory.totalMemory
    modifies t.memory, t.memory.Buffers(), bank, bank.Held()
    ensures Ready(t, bank) && t.memory.cpuFresh && !t.memory.gpuFresh
    ensures t.memory.Contents()[FlatPosition(t, i)] == v
    ensures old(t.memory.Initialized()) ==>
              t.memory.Contents() == old(t.memory.Contents())[FlatPosition(t, i) := v]
  {
    var p := t.memory.MutableCpuData(bank);
    p[FlatPosition(t, i)] := v;
  }

  /** `operator()(i, j) = v`. */
  method Put2(t: Tensor, i: nat, j: nat, v: int, bank: Bank)
    requires |t.shape| >= 1 && Ready(t, bank) && GridPosition(t, i, j) < t.memory.totalMemory
    modifies t.memory, t.memory.Buffers(), bank, bank.Held()
    ensures Ready(t, bank) && t.memory.cpuFresh && !t.memory.gpuFresh
    ensures t.memory.Contents()[GridPosition(t, i, j)] == v
    ensures old(t.memory.Initialized()) ==>
              t.memory.Contents() == old(t.memory.Contents())[GridPosition(t, i, j) := v]
  {
    var p := t.memory.MutableCpuData(bank);
    p[GridPosition(t, i, j)] := v;
  }

  /** The memory's contents with the positions `from .. from + n` zeroed. */
  function ZeroedRange(s: seq<int>, from: nat, n: nat): (r: seq<int>)
    requires from + n <= |s|
    ensures |r| == |s|
    ensures forall p :: 0 <= p < |s| ==> r[p] == if from <= p < from + n then 0 else s[p]
  {
    s[..from] + Zeros(n) + s[from + n..]
  }

  /** `clear`: zero the view's elements in place, through the host block;
      the rest of the shared memory keeps its data. */
  method Clear(t: Tensor, bank: Bank)
    requires Ready(t, bank) && t.offset + NumberOfElements(t) <= t.memory.totalMemory
    modifies t.memory, t.memory.Buffers(), bank, bank.Held()
    ensures Ready(t, bank) && t.memory.cpuFresh && !t.memory.gpuFresh
    ensures forall k :: 0 <= k < NumberOfElements(t) ==> t.memory.Contents()[FlatPosition(t, k)] == 0
    ensures old(t.memory.Initialized()) ==>
              t.memory.Contents() == ZeroedRange(old(t.memory.Contents()), t.offset, NumberOfElements(t))
  {
    var p := t.memory.MutableCpuData(bank);
    var from, n := t.offset, NumberOfElements(t);
    forall q | from <= q < from + n {
      p[q] := 0;
    }
  }

  /** `zeros(shape)`: a new tensor of that shape whose every element is 0. */
  method ZerosTensor(shape: Shape, preferred: Device, clearOnAllocation: bool, cuda: bool, bank: Bank)
    returns (t: Tensor)
    requires |shape| >= 1 && shape[|shape| - 1] > 0 && bank.Valid()
    modifies bank, bank.Held()
    ensures t.shape == shape && t.offset == 0 && fresh(t.memory) && Ready(t, bank)
    ensures t.memory.Initialized() && t.memory.Contents() == Zeros(Size(shape))
  {
    t := NewTensor(shape, preferred, clearOnAllocation, cuda);
    Clear(t, bank);
    assert |t.memory.Contents()| == Size(shape);
    forall k | 0 <= k < Size(shape)
      ensures t.memory.Contents()[k] == 0
    {
      assert FlatPosition(t, k) == k;
    }
    assert t.memory.Contents() == Zeros(Size(shape));
  }
}

=== FILE: wikianswer_generate.dfy ===
/** The question/answer extraction of the WikiAnswers dataset script: among
    the entries of the unpacked dataset directory, the directories whose
    names start with 'S' are visited in order; the first line of each one's
    `question_answer_pairs.txt` is skipped, and every other line, split on
    tabs, contributes its second and third fields, each followed by a
    newline.  Downloading, unpacking, reading the files and writing the
    output are not modelled: a directory entry carries the lines of its
    data file, or nothing when there is no such file.  Each line is as
    Python's file iterator yields it with `newline=''`: its terminator
    (`\n`, `\r\n` or a lone `\r`) is kept, and the fields are split from
    it as is. */
module WikiAnswerGenerate {

  datatype Option<T> = None | Some(value: T)

  /** One entry of the dataset directory listing. */
  datatype Entry = Entry(name: string, isDir: bool, dataFile: Option<seq<string>>)

  /** How a run of the script ends: with the collected output lines, or
      aborted by a failed assertion or an `IndexError`. */
  datatype Outcome =
    | Generated(output: seq<string>)
    | NoSubjectDirectories
    | MissingDataFile(directory: string)
    | ShortRow(directory: string, line: nat)

  const Tab: char := '\t'

  /** A directory whose name starts with 'S'. */
  predicate IsSubject(e: Entry)
  {
    e.isDir && |e.name| > 0 && e.name[0] == 'S'
  }

  /** The directory filter: the subject directories, in listing order. */
  function Subjects(entries: seq<Entry>): (kept: seq<Entry>)
    ensures |kept| <= |entries|
    ensures forall e :: e in kept <==> e in entries && IsSubject(e)
  {
    if |entries| == 0 then []
    else (if IsSubject(entries[0]) then [entries[0]] else []) + Subjects(entries[1..])
  }

  /** Filtering a listing in two parts filters each part in turn, so the
      listing order is kept. */
  lemma {:induction false} SubjectsKeepOrder(a: seq<Entry>, b: seq<Entry>)
    ensures Subjects(a + b) == Subjects(a) + Subjects(b)
  {
    if |a| == 0 {
      assert a + b == b;
    } else {
      assert (a + b)[1..] == a[1..] + b;
      SubjectsKeepOrder(a[1..], b);
    }
  }

  /** `str.split('\t')`: the text between tabs, in order. */
  function Split(s: string): (fields: seq<string>)
    ensures |fields| >= 1
  {
    if |s| == 0 then [""]
    else if s[0] == Tab then [""] + Split(s[1..])
    else
      var rest := Split(s[1..]);
      [[s[0]] + rest[0]] + rest[1..]
  }

  /** `'\t'.join(fields)`. */
  function Join(fields: seq<string>): string
    requires |fields| >= 1
  {
    if |fields| == 1 then fields[0] else fields[0] + [Tab] + Join(fields[1..])
  }

  /** Splitting loses nothing: joining the fields with tabs gives the line back. */
  lemma {:induction false} JoinSplit(s: string)
    ensures Join(Split(s)) == s
  {
    if |s| > 0 {
      JoinSplit(s[1..]);
      if s[0] != Tab {
        var rest := Split(s[1..]);
        if |rest| > 1 {
          assert ([[s[0]] + rest[0]] + rest[1..])[1..] == rest[1..];
        }
      }
    }
  }

  /** A line has one field more than it has tabs, and no field holds a tab. */
  lemma {:induction false} FieldCount(s: string)
    ensures |Split(s)| == multiset(s)[Tab] + 1
    ensures forall k :: 0 <= k < |Split(s)| ==> Tab !in Split(s)[k]
  {
    if |s| > 0 {
      FieldCount(s[1..]);
      assert s == [s[0]] + s[1..];
      var rest := Split(s[1..]);
      if s[0] != Tab {
        forall k | 0 <= k < |Split(s)|
          ensures Tab !in Split(s)[k]
        {
          if k == 0 {
            assert Split(s)[0] == [s[0]] + rest[0];
          } else {
            assert Split(s)[k] == rest[k];
          }
        }
      } else {
        forall k | 0 <= k < |Split(s)|
          ensures Tab !in Split(s)[k]
        {
          if k > 0 {
            assert Split(s)[k] == rest[k - 1];
          }
        }
      }
    }
  }

  /** A data row is usable when it has at least three fields. */
  predicate Usable(line: string)
  {
    |Split(line)| >= 3
  }

  /** The two output lines a usable row contributes. */
  function RowPair(line: string): (pair: seq<string>)
    requires Usable(line)
    ensures |pair| == 2
  {
    [Split(line)[1] + "\n", Split(line)[2] + "\n"]
  }

  /** What reading one data file gives: its pairs, or the index of the line
      that raised the `IndexError`. */
  datatype Extracted = Pairs(pairs: seq<string>) | Short(line: nat)

  /** The rows of one file, read up to its last line; line 0 is the header. */
  function Extract(lines: seq<string>): Extracted
  {
    if |lines| <= 1 then Pairs([])
    else
      match Extract(lines[..|lines| - 1])
      case Short(k) => Short(k)
      case Pairs(p) =>
        var last := lines[|lines| - 1];
        if Usable(last) then Pairs(p + RowPair(last)) else Short(|lines| - 1)
  }

  /** A string without tabs is a single field. */
  lemma {:induction false} SplitNoTab(t: string)
    requires Tab !in t
    ensures Split(t) == [t]
  {
    if |t| > 0 {
      SplitNoTab(t[1..]);
      assert [t[0]] + t[1..] == t;
    }
  }

  /** A tab-free prefix followed by a tab is the first field. */
  lemma {:induction false} SplitAtTab(a: string, b: string)
    requires Tab !in a
    ensures Split(a + [Tab] + b) == [a] + Split(b)
  {
    if |a| > 0 {
      SplitAtTab(a[1..], b);
      assert (a + [Tab] + b)[1..] == a[1..] + [Tab] + b;
      assert [a[0]] + a[1..] == a;
    } else {
      assert a + [Tab] + b == [Tab] + b;
    }
  }

  /** A line keeps its terminator, as Python's file iterator yields it.
      When the third field is the row's last, it ends with that terminator,
      and its output string is the terminator followed by one more newline:
      a row `q\ta\tb\r\n` gives `"a\n"` and `"b\r\n\n"`, and the written file
      gets a blank line after `b`. */
  lemma TerminatorKept(header: string, q: string, a: string, b: string)
    requires Tab !in q && Tab !in a && Tab !in b
    ensures Extract([header, q + [Tab] + a + [Tab] + b]) == Pairs([a + "\n", b + "\n"])
  {
    var row := q + [Tab] + a + [Tab] + b;
    assert row == q + [Tab] + (a + [Tab] + b);
    SplitNoTab(b);
    SplitAtTab(a, b);
    SplitAtTab(q, a + [Tab] + b);
    var lines := [header, row];
    assert lines[..1] == [header];
  }

  /** The subject directories, visited up to the last one. */
  function Collect(dirs: seq<Entry>): Outcome
  {
    if |dirs| == 0 then Generated([])
    else
      match Collect(dirs[..|dirs| - 1])
      case Generated(out) =>
        var last := dirs[|dirs| - 1];
        (match last.dataFile
         case None => MissingDataFile(last.name)
         case Some(lines) =>
           match Extract(lines)
           case Short(k) => ShortRow(last.name, k)
           case Pairs(p) => Generated(out + p))
      case failed => failed
  }

  /** What the script does with a directory listing. */
  function Generate(entries: seq<Entry>): Outcome
  {
    if |Subjects(entries)| == 0 then NoSubjectDirectories else Collect(Subjects(entries))
  }

  /** The data rows of a file: all lines but the header. */
  function DataRows(lines: seq<string>): seq<string>
  {
    if |lines| == 0 then [] else lines[1..]
  }

  /** The data rows of every directory, directory by directory. */
  function AllRows(dirs: seq<Entry>): seq<string>
  {
    if |dirs| == 0 then []
    else
      var last := dirs[|dirs| - 1];
      AllRows(dirs[..|dirs| - 1]) + (if last.dataFile.Some? then DataRows(last.dataFile.value) else [])
  }

  /** Every directory has its data file and every data row is usable. */
  predicate WellFormed(dirs: seq<Entry>)
  {
    forall d :: d in dirs ==> d.dataFile.Some? && forall row :: row in DataRows(d.dataFile.value) ==> Usable(row)
  }

  /** Row `k` of a file is its first unusable data row. */
  predicate FirstShortRow(lines: seq<string>, k: int)
  {
    1 <= k < |lines| && !Usable(lines[k]) && forall j :: 1 <= j < k ==> Usable(lines[j])
  }

  /** The output lines that the given rows produce, two per row and in
      row order. */
  predicate PairsOf(out: seq<string>, rows: seq<string>)
  {
    && |out| == 2 * |rows|
    && forall k :: 0 <= k < |rows| ==>
         Usable(rows[k]) && out[2 * k] == Split(rows[k])[1] + "\n" && out[2 * k + 1] == Split(rows[k])[2] + "\n"
  }

  lemma PairsOfAppend(out: seq<string>, rows: seq<string>, more: seq<string>, moreRows: seq<string>)
    requires PairsOf(out, rows) && PairsOf(more, moreRows)
    ensures PairsOf(out + more, rows + moreRows)
  {
    forall k | |rows| <= k < |rows| + |moreRows|
      ensures (out + more)[2 * k] == more[2 * (k - |rows|)]
      ensures (out + more)[2 * k + 1] == more[2 * (k - |rows|) + 1]
    {
    }
  }

  /** A file that stops early stops at its first unusable data row. */
  lemma {:induction false} ExtractShort(lines: seq<string>)
    ensures Extract(lines).Short? ==> FirstShortRow(lines, Extract(lines).line)
  {
    if |lines| > 1 {
      var init := lines[..|lines| - 1];
      ExtractShort(init);
      if Extract(init).Short? {
        assert lines[Extract(init).line] == init[Extract(init).line];
      } else if Extract(lines).Short? {
        ExtractPairs(init);
        forall j | 1 <= j < |lines| - 1
          ensures Usable(lines[j])
        {
          assert lines[j] == DataRows(init)[j - 1];
        }
      }
    }
  }

  /** A file read through gives the pairs of its data rows, in order. */
  lemma {:induction false} ExtractPairs(lines: seq<string>)
    ensures Extract(lines).Pairs? ==> PairsOf(Extract(lines).pairs, DataRows(lines))
  {
    if |lines| > 1 {
      var init := lines[..|lines| - 1];
      var last := lines[|lines| - 1];
      ExtractPairs(init);
      if Extract(lines).Pairs? {
        assert DataRows(lines) == DataRows(init) + [last];
        assert PairsOf(RowPair(last), [last]);
        PairsOfAppend(Extract(init).pairs, DataRows(init), RowPair(last), [last]);
      }
    }
  }

  /** A file is read through exactly when all its data rows are usable;
      it then gives the pairs of its rows, and otherwise the first unusable
      row stops it. */
  lemma ExtractMeaning(lines: seq<string>)
    ensures Extract(lines).Pairs? <==> forall row :: row in DataRows(lines) ==> Usable(row)
    ensures Extract(lines).Pairs? ==> PairsOf(Extract(lines).pairs, DataRows(lines))
    ensures Extract(lines).Short? ==> FirstShortRow(lines, Extract(lines).line)
  {
    ExtractShort(lines);
    ExtractPairs(lines);
    if Extract(lines).Short? {
      var k := Extract(lines).line;
      assert lines[k] == DataRows(lines)[k - 1];
    } else {
      var rows := DataRows(lines);
      forall row | row in rows
        ensures Usable(row)
      {
        var k :| 0 <= k < |rows| && rows[k] == row;
      }
    }
  }

  /** A completed run read well-formed directories and gave the pairs of
      all their rows; the run over the subject directories never reports
      that there are none. */
  lemma {:induction false} GeneratedRows(dirs: seq<Entry>)
    ensures Collect(dirs).Generated? ==> WellFormed(dirs) && PairsOf(Collect(dirs).output, AllRows(dirs))
    ensures !Collect(dirs).NoSubjectDirectories?
  {
    if |dirs| > 0 {
      var init := dirs[..|dirs| - 1];
      var last := dirs[|dirs| - 1];
      GeneratedRows(init);
      if Collect(dirs).Generated? {
        var lines := last.dataFile.value;
        ExtractMeaning(lines);
        assert dirs == init + [last];
        PairsOfAppend(Collect(init).output, AllRows(init), Extract(lines).pairs, DataRows(lines));
      }
    }
  }

  /** A failed run names the first failing directory: every directory
      before it is well formed, and a short row is the first unusable row
      of that directory's data file. */
  lemma {:induction false} CollectStopsAtFirstFailure(dirs: seq<Entry>)
    ensures Collect(dirs).MissingDataFile? ==>
              exists i :: 0 <= i < |dirs| && WellFormed(dirs[..i]) &&
                dirs[i].dataFile.None? && dirs[i].name == Collect(dirs).directory
    ensures Collect(dirs).ShortRow? ==>
              exists i :: 0 <= i < |dirs| && WellFormed(dirs[..i]) &&
                dirs[i].name == Collect(dirs).directory && dirs[i].dataFile.Some? &&
                FirstShortRow(dirs[i].dataFile.value, Collect(dirs).line)
  {
    if |dirs| > 0 {
      var init := dirs[..|dirs| - 1];
      var n := |dirs| - 1;
      CollectStopsAtFirstFailure(init);
      match Collect(init)
      case Generated(_) =>
        GeneratedRows(init);
        assert dirs[..n] == init;
        if dirs[n].dataFile.Some? {
          ExtractShort(dirs[n].dataFile.value);
        }
      case MissingDataFile(name) =>
        var i :| 0 <= i < |init| && WellFormed(init[..i]) && init[i].dataFile.None? && init[i].name == name;
        assert dirs[..i] == init[..i] && dirs[i] == init[i];
      case ShortRow(name, k) =>
        var i :| 0 <= i < |init| && WellFormed(init[..i]) && init[i].name == name &&
                 init[i].dataFile.Some? && FirstShortRow(init[i].dataFile.value, k);
        assert dirs[..i] == init[..i] && dirs[i] == init[i];
      case NoSubjectDirectories =>
    }
  }

  /** The run over the directories completes exactly when every directory
      has its data file and all their rows are usable, and the output is
      then the pairs of all rows, in directory order and row order. */
  lemma CollectMeaning(dirs: seq<Entry>)
    ensures Collect(dirs).Generated? <==> WellFormed(dirs)
    ensures Collect(dirs).Generated? ==> PairsOf(Collect(dirs).output, AllRows(dirs))
    ensures Collect(dirs).MissingDataFile? ==> exists d :: d in dirs && d.dataFile.None? && d.name == Collect(dirs).directory
    ensures Collect(dirs).ShortRow? ==>
              exists d :: d in dirs && d.name == Collect(dirs).directory && d.dataFile.Some? &&
                0 < Collect(dirs).line < |d.dataFile.value| && !Usable(d.dataFile.value[Collect(dirs).line])
    ensures !Collect(dirs).NoSubjectDirectories?
  {
    GeneratedRows(dirs);
    CollectStopsAtFirstFailure(dirs);
    match Collect(dirs)
    case Generated(_) =>
    case MissingDataFile(name) =>
      var i :| 0 <= i < |dirs| && WellFormed(dirs[..i]) && dirs[i].dataFile.None? && dirs[i].name == name;
      assert dirs[i] in dirs;
    case ShortRow(name, k) =>
      var i :| 0 <= i < |dirs| && WellFormed(dirs[..i]) && dirs[i].name == name &&
               dirs[i].dataFile.Some? && FirstShortRow(dirs[i].dataFile.value, k);
      var lines := dirs[i].dataFile.value;
      assert dirs[i] in dirs;
      assert lines[k] in DataRows(lines) by {
        assert lines[k] == DataRows(lines)[k - 1];
      }
  }

  /** The script stops at once when no subject directory exists. */
  lemma NoSubjects(entries: seq<Entry>)
    ensures Generate(entries) == NoSubjectDirectories <==> forall e :: e in entries ==> !IsSubject(e)
  {
    CollectMeaning(Subjects(entries));
    if |Subjects(entries)| > 0 {
      assert Subjects(entries)[0] in Subjects(entries);
    }
  }

  /** The number of question/answer pairs the script reports: half the
      output length, which is the number of data rows read. */
  function PairCount(output: seq<string>): nat
  {
    |output| / 2
  }

  lemma PairCountIsRows(entries: seq<Entry>)
    requires Generate(entries).Generated?
    ensures PairCount(Generate(entries).output) == |AllRows(Subjects(entries))|
  {
    CollectMeaning(Subjects(entries));
  }

  /** Once a prefix of the directories has failed, the whole run fails the
      same way. */
  lemma {:induction false} FailureSticks(dirs: seq<Entry>, i: nat)
    requires i <= |dirs| && !Collect(dirs[..i]).Generated?
    ensures Collect(dirs) == Collect(dirs[..i])
    decreases |dirs| - i
  {
    if i < |dirs| {
      assert dirs[..i + 1][..i] == dirs[..i];
      FailureSticks(dirs, i + 1);
    } else {
      assert dirs[..i] == dirs;
    }
  }

  /** Once a prefix of a file has a short row, the whole file does. */
  lemma {:induction false} ShortSticks(lines: seq<string>, j: nat)
    requires 1 <= j <= |lines| && Extract(lines[..j]).Short?
    ensures Extract(lines) == Extract(lines[..j])
    decreases |lines| - j
  {
    if j < |lines| {
      assert lines[..j + 1][..j] == lines[..j];
      ShortSticks(lines, j + 1);
    } else {
      assert lines[..j] == lines;
    }
  }

  /** One more subject directory, after the earlier ones succeeded. */
  lemma CollectNext(dirs: seq<Entry>, i: nat, out: seq<string>)
    requires i < |dirs| && Collect(dirs[..i]) == Generated(out)
    ensures dirs[i].dataFile.None? ==> Collect(dirs[..i + 1]) == MissingDataFile(dirs[i].name)
    ensures dirs[i].dataFile.Some? && Extract(dirs[i].dataFile.value).Short? ==>
              Collect(dirs[..i + 1]) == ShortRow(dirs[i].name, Extract(dirs[i].dataFile.value).line)
    ensures dirs[i].dataFile.Some? && Extract(dirs[i].dataFile.value).Pairs? ==>
              Collect(dirs[..i + 1]) == Generated(out + Extract(dirs[i].dataFile.value).pairs)
  {
    assert dirs[..i + 1][..i] == dirs[..i];
  }

  /** One more line of a data file, after the earlier rows were usable. */
  lemma ExtractNext(lines: seq<string>, j: nat, pairs: seq<string>)
    requires 1 <= j < |lines| && Extract(lines[..j]) == Pairs(pairs)
    ensures Usable(lines[j]) ==> Extract(lines[..j + 1]) == Pairs(pairs + RowPair(lines[j]))
    ensures !Usable(lines[j]) ==> Extract(lines[..j + 1]) == Short(j)
  {
    assert lines[..j + 1][..j] == lines[..j];
  }

  /** The `with open(...)` block for one data file: the loop over its
      lines with the `first` flag that skips the header. */
  method ReadPairs(lines: seq<string>) returns (r: Extracted)
    ensures r == Extract(lines)
  {
    var pairs: seq<string> := [];
    var first := true;
    for j := 0 to |lines|
      invariant first <==> j == 0
      invariant j > 0 ==> Extract(lines[..j]) == Pairs(pairs)
      invariant j == 0 ==> pairs == []
    {
      var line := lines[j];
      if first {
        first := false;
        assert Extract(lines[..1]) == Pairs([]);
        continue;
      }
      ExtractNext(lines, j, pairs);
      var tokens := Split(line);
      if |tokens| < 3 {
        ShortSticks(lines, j + 1);
        return Short(j);
      }
      pairs := pairs + [tokens[1] + "\n", tokens[2] + "\n"];
    }
    assert lines[..|lines|] == lines;
    return Pairs(pairs);
  }

  /** The `__main__` block from the directory listing on: the filter and
      the loop over the subject directories, each read by `ReadPairs`. */
  method GenerateDataset(entries: seq<Entry>) returns (outcome: Outcome)
    ensures outcome == Generate(entries)
  {
    var directories := Subjects(entries);
    if |directories| == 0 {
      return NoSubjectDirectories;
    }
    var output: seq<string> := [];
    for i := 0 to |directories|
      invariant Collect(directories[..i]) == Generated(output)
    {
      var d := directories[i];
      CollectNext(directories, i, output);
      if d.dataFile.None? {
        FailureSticks(directories, i + 1);
        return MissingDataFile(d.name);
      }
      var read := ReadPairs(d.dataFile.value);
      if read.Short? {
        FailureSticks(directories, i + 1);
        return ShortRow(d.name, read.line);
      }
      output := output + read.pairs;
    }
    assert directories[..|directories|] == directories;
    return Generated(output);
  }
}
